=== FILE: README.md ===
# auto_doc: a verified model of the resumable documentation walk

`auto_doc` walks a source repository, asks a language model to document
each folder and each matching source file, feeds every result into a
running project context, and saves its progress after every unit, so an
interrupted run can resume where it stopped. A separate script turns the
saved documentation dictionary into one markdown file.

This Dafny project models the deterministic core of that program:

- `should_skip_folder` and `should_analyze_file`, the two configuration
  predicates;
- the `os.walk` traversal with its two prunings: `.git` is removed, and a
  skipped folder's sub-directories are emptied;
- the loop body of `analyze_codebase`: the hard-coded test-folder
  exclusion, the empty-folder case, the "already documented" check, and
  the insert / `update_context` / `save_progress` triple for every new
  unit;
- `analyze_folder`, `analyze_file` and `analyze_large_file` with their
  dispatch on the chunk count and the assembled strings;
- `load_progress` / `load_state` / `save_progress`;
- `generate_documentation`;
- `json_to_markdown`.

The language model, the similarity search, the text splitter and the file
reader are uninterpreted total functions. They are the fields of
`Backend.Services`. Every prompt that `analyze_codebase` makes is
logged as an `Analyzer.Call` tagged with the path it serves. This log
lets the contracts talk about which calls are made and in what order.
The map-reduce summarize chain of a large file is logged as one call,
although it prompts the model once per chunk and again to reduce. The
project prompt of `generate_documentation` serves no path and is not
logged.

Layout, one module per file:

| file | module | models |
|---|---|---|
| options.dfy | Options | `dict.get(k, default)` |
| strings.dfy | Strings | Python's `in`, `endswith`, `join`, `os.path.join`, `os.path.basename` |
| docstore.dfy | DocStore | the insertion-ordered documentation dictionary |
| config.dfy | Config | configuration defaults, `should_skip_folder`, `should_analyze_file`, test-folder check |
| backend.dfy | Backend | the external services, as oracles |
| context.dfy | Context | `ContextManager.update_context`, `get_relevant_context` |
| persistence.dfy | Persistence | the two progress files, `save_progress`, `load_progress`, `load_state` |
| walk.dfy | Traversal | the directory tree and the pruned top-down walk |
| analyzer.dfy | Analyzer | `analyze_folder`, `analyze_file`, `analyze_large_file`, the walk loop, `analyze_codebase`, `generate_documentation` |
| units.dfy | Units | the walk as a list of candidate units; growth and key lemmas |
| resume.dfy | Resumption | the contract of one run; resuming after an interruption |
| markdown.dfy | Markdown | `json_to_markdown` |
| scenario.dfy | Scenario | a worked two-folder repository |

The main step is `Units.RunIsProcessAll`. Which folders and files are
candidates depends only on the tree and the configuration. The
documentation state decides only whether a candidate is already present.
The code-shaped loop (`Analyzer.Run`) is therefore proved equal to "for
each candidate in walk order, document it unless its key is present"
(`Units.ProcessAll`). The run contract, the pruning lemmas and the resume
theorem are all stated on top of this equality.

The test-folder check (audot_doc.py:107) is a substring test on the
folder's relative path. So every folder below `src/test` is excluded as
well, and so are folders such as `src/testing` or `lib/src/test`
(`Units.TestFolderContributesNothing`). The walk still descends into them
(`Units.TestFolderStillWalked`). A file's own name plays no part:
`src/test.java` in the folder `src` is documented
(`Resumption.TestNamedFileKept`).

## Model

| member | source | states |
|---|---|---|
| Strings.ContainsIff | audot_doc.py:88 | Python's substring test holds exactly when some window of the text equals the needle; the empty needle occurs everywhere |
| Strings.BasenameIff | to_markdown.py:9 | `os.path.basename(p)` is the unique suffix of `p` that has no '/' and is all of `p` or preceded by '/' |
| Config.ShouldSkipFolderIff | audot_doc.py:87-88 | `should_skip_folder(p)` holds iff some configured `skip_folders` entry is a substring of `p` |
| Config.NoSkipFoldersSkipsNothing | audot_doc.py:67 | with `skip_folders` absent (default `[]`) or empty, no folder is skipped |
| Config.SkipExtends | audot_doc.py:87-88 | a path that contains a skipped path is itself skipped, so every folder below a skipped folder would be skipped as well |
| Config.ShouldAnalyzeFileIff | audot_doc.py:133-134 | `should_analyze_file(f)` holds iff `f` ends with some configured extension |
| Config.MatchingFiles | audot_doc.py:138 | the filtered list holds exactly the files that match an extension, and is no longer than the input |
| Config.MatchingFilesInOrder | audot_doc.py:138 | the filtered list keeps the listing order and lists each matching file as often as the listing does, and no other file; together these determine the list |
| Traversal.RemoveGit | audot_doc.py:97-98 | removing `.git` keeps only existing sub-directories, leaves the list alone when there is no `.git`, and drops one entry otherwise |
| Traversal.RemoveGitDropsFirst | audot_doc.py:97-98 | the entry dropped is the first `.git`; the entries before and after it stay, in order |
| Traversal.Walk | audot_doc.py:96-105 | the walk yields the starting folder first; a skipped folder is yielded but its sub-directories are never entered |
| Traversal.WalkStaysBelow | audot_doc.py:96-100 | walking from a non-root folder, every folder the walk yields other than the start has the start's path followed by '/' as a prefix |
| Traversal.WalkSkipsGit | audot_doc.py:97-98 | when sibling names are distinct (as in a file system), no folder named `.git` is ever visited below the start |
| DocStore.PutLookupSame | audot_doc.py:114 | after `d[k] = v`, looking up `k` gives `v` |
| DocStore.PutLookupOther | audot_doc.py:125 | `d[k] = v` leaves every other key's lookup unchanged |
| DocStore.PutAbsent | audot_doc.py:123-125 | writing an absent key appends one entry at the end and keeps keys unique |
| Context.UpdateContext | audot_doc.py:22-29 | `update_context` adds exactly one text, the new content, at the end of the store and keeps the earlier texts |
| Context.RelevantContext | audot_doc.py:31-33 | the retrieved context contains every fragment the similarity search returned for the query with k = 3 |
| Persistence.LoadState | audot_doc.py:42-50 | with no context file, the context state is left unchanged |
| Persistence.LoadProgress | audot_doc.py:78-85 | without a documentation file, `load_progress` returns false and changes nothing; with one, it returns true and takes the saved dictionary |
| Persistence.SaveLoadRoundTrip | audot_doc.py:73-85 | loading what `save_progress` wrote restores the same dictionary and context and reports a resume |
| Analyzer.AnalyzeFolder | audot_doc.py:136-147 | no model call happens iff no file matches an extension, and then the documentation is ""; otherwise exactly one folder prompt is made for that path, and the documentation is that prompt over the matching names joined by ", " and the context retrieved for the path |
| Analyzer.FolderPromptNamesMatchingFiles | audot_doc.py:138-147 | with a matching file, `analyze_folder` makes exactly the folder prompt over the path, the matching names joined by ", " and the context retrieved for the path, and that `files` argument names every matching file |
| Analyzer.AnalyzeLargeFile | audot_doc.py:179-196 | a large file costs one map-reduce summary and one relationship prompt; the documentation opens with "Large file summary for {path}:\n", then the summary, and ends with "\n\nRelationships:\n" and the relationships; its length is the parts plus 42 |
| Analyzer.ChunkCalls | audot_doc.py:166-168 | the chunk loop makes one prompt per chunk, indexed 0 to n-1 in order |
| Analyzer.AnalyzeFile | audot_doc.py:149-177 | with more chunks than `max_chunks` (default 10) the large-file path is taken with no per-chunk prompt; otherwise there are exactly one prompt per chunk, in order, and then one combine prompt over the chunk documentation joined by "\n\n" |
| Analyzer.CombineSeesEveryChunkDoc | audot_doc.py:165-177 | every chunk's documentation appears verbatim in the text given to the combine prompt |
| Analyzer.Record | audot_doc.py:113-118 | recording a unit writes the dictionary entry, adds the documentation to the context store, logs one summary update after the unit's own calls, and saves both states |
| Units.VisitFilesIsProcessAll | audot_doc.py:120-129 | the file loop of one folder documents exactly its matching files whose keys are absent, in listing order |
| Units.VisitFolderIsProcessAll | audot_doc.py:102-129 | one loop iteration documents the folder, if it is neither skipped nor a test folder, has files and is absent, and then its absent matching files |
| Units.RunIsProcessAll | audot_doc.py:96-129 | the whole walk loop equals documenting every candidate unit whose key is absent, in walk order |
| Units.UnitsAvoidExcludedFolders | audot_doc.py:102-121 | no candidate's folder, nor any folder above it, is skipped or a test folder; folder candidates have files; file candidates match an extension |
| Units.KeptFolderCandidate | audot_doc.py:110-114 | conversely, a visited folder that is neither skipped nor a test folder is a candidate as soon as it has files, whether or not any of them matches |
| Units.KeptFileCandidate | audot_doc.py:120-125 | each matching file of such a folder is a candidate, whatever the file is called |
| Units.ProcessAllKeepsLookup | audot_doc.py:110-125 | documenting candidates never changes the value of an entry already present |
| Units.ProcessAllRecordsEmptyFolder | audot_doc.py:110-114 | an absent folder candidate none of whose files matches is recorded with "" |
| Units.SkippedFolderContributesNothing | audot_doc.py:102-105 | a skipped folder contributes no candidate, neither itself nor anything below it |
| Units.TestFolderContributesNothing | audot_doc.py:107-108 | a `src/test` or `src\test` folder and everything below it contribute no candidate |
| Units.TestFolderStillWalked | audot_doc.py:107-108 | unlike a skipped folder, a non-skipped test folder's sub-directories (other than `.git`) are still visited |
| Units.ProcessAllGrows | audot_doc.py:110-129 | documenting candidates only appends: old entries and calls stay in place; keys stay unique; the store gains the new documentation in insertion order; each new call serves a new key; the summary updates are the new keys in order; the disk holds the final state |
| Units.ProcessAllKeys | audot_doc.py:110-125 | the keys after processing are exactly the old keys plus the candidates' keys |
| Units.ProcessAllKnown | audot_doc.py:110-123 | candidates whose keys are all present change nothing and make no call |
| Units.ProcessAllIgnoresLog | audot_doc.py:110-129 | the outcome does not depend on the calls already made; starting from an empty log yields exactly the calls that would be appended |
| Resumption.AnalyzeCodebaseContract | audot_doc.py:90-131 | one run keeps every loaded entry in place with its value; inserts only previously absent keys, each once; ends with the loaded keys plus the walk's candidates; pairs each insertion with one store addition and one summary update in insertion order; makes no model call for a loaded key; leaves the final state saved, or everything unchanged when nothing was inserted |
| Resumption.NewKeysAvoidExcludedFolders | audot_doc.py:96-129 | every key a run inserts comes from a candidate none of whose enclosing folders is skipped or a test folder |
| Resumption.KeptFolderDocumented | audot_doc.py:110-118 | after a run, every visited folder that is neither skipped nor a test folder and holds files has its entry |
| Resumption.KeptFileDocumented | audot_doc.py:120-129 | after a run, every matching file of such a folder has an entry under `os.path.join(folder, name)` |
| Resumption.EmptyFolderRecordedEmpty | audot_doc.py:110-118 | a kept, previously undocumented folder with files, none of which matches, is recorded with "" (given that no other candidate shares its key) |
| Resumption.TestNamedFileKept | audot_doc.py:107-108 | the test-folder check applies to the folder path only: `test.java` in a kept folder `src` is documented under `src/test.java`, although that key contains "src/test" |
| Resumption.RootFileKey | audot_doc.py:100-122 | with the root's relative path ".", a root-level file is keyed `./name` and a sub-folder of the root is keyed by its bare name |
| Resumption.ResumeAfterInterruption | audot_doc.py:78-131 | with every prompt a function of its inputs and the interruption falling between two units: a run interrupted after any number of units and restarted on the same save directory ends with the same dictionary, context and saved state as an uninterrupted run, and the two runs together make exactly the uninterrupted run's model calls, none twice |
| Resumption.GenerateDocumentationContract | audot_doc.py:198-214 | `generate_documentation` returns every loaded entry in place with its value, exactly the loaded keys plus the walk's candidates' keys, each once, and a project summary computed from exactly that documentation and the final running summary |
| Resumption.RerunDoesNothing | audot_doc.py:90-131 | running again on the save directory a finished run left makes no model call and changes neither dictionary nor context |
| Markdown.JsonToMarkdown | to_markdown.py:4-17 | the output is the entries' sections in dictionary order; its length is the sum of the base name length, the value length and 7 over all entries; an empty dictionary gives "" |
| Markdown.SectionsAppend | to_markdown.py:7-15 | appending an entry appends exactly its section |
| Markdown.SectionsConcat | to_markdown.py:7-15 | the output for two dictionaries in sequence is the two outputs concatenated |
| Markdown.SectionShape | to_markdown.py:9-15 | each section starts with "## " + basename(key) + "\n\n" and ends with the value verbatim followed by "\n\n"; the header is the key's final path component |
| Markdown.FileSectionHeader | to_markdown.py:9-12 | a file documented under `os.path.join(folder, name)`, including root files keyed `./name`, gets the header "## name" |
| Scenario.TwoFileRepository | audot_doc.py:96-129 | for a repository with a source folder holding one three-chunk Java file and a skipped folder holding another, a fresh run records exactly `src` and `src/App.java` and makes the folder, three chunk and combine prompts, with one summary update after each insertion |

## Left out

- Language-model internals, prompt templating and the configurable prompt texts (`folder_prompt`, `file_prompt`, `combine_prompt`, `project_prompt`): each prompt is one uninterpreted function of the values put into it.
- The embedding model and FAISS ranking: `get_relevant_context` is modelled as an oracle that returns fragments, which are then joined by newlines.
- `RecursiveCharacterTextSplitter` and file reading: both are oracles (`split`, `read`), so `chunk_size` and `chunk_overlap` do not appear.
- Failures are not modelled, because the oracles are total. A model error or an unreadable file would raise and end the run. The resume theorem covers what happens after such a crash: the crash is modelled as the run stopping after some number of units.
- Serialisation formats (JSON, pickle) and their corruption are not modelled: a progress file is either absent or holds exactly what was saved.
- `save_progress` writes its two files one after the other, not atomically; the model treats the pair as one write, so a crash between the two writes is not modelled.
- Configuration loading is not modelled. A `config.json` without `file_extensions` would raise `KeyError` in `should_analyze_file`; the model makes that field mandatory. `model`, `chunk_size` and `chunk_overlap` only shape the oracles.
- `os.walk` itself is replaced by a tree datatype walked in preorder, in the tree's listing order: no symbolic links, no permission errors and no filesystem ordering.
- Paths use the POSIX separator in `os.path.join`, `os.path.relpath` and `os.path.basename`; only the test-folder check keeps its `src\test` spelling.
- `print` output, `git.Repo`, `os.makedirs`, the `__main__` block of audot_doc.py (lines 216-228) and the unguarded module-level read, convert and write code of to_markdown.py (lines 19-29) are left out.
- config.py is configuration data with no logic and is not part of this model.
- Context.RelevantContext: states only that each retrieved fragment appears in the joined context. Which fragments the similarity search picks, and in what order, belongs to the search.
- Resumption.ResumeAfterInterruption: relies on two modelling assumptions. First, every prompt is a function of its inputs. The Ollama backend (audot_doc.py:59) samples, so a real resumed run generally produces different texts; only the keys, their insertion order and the shape of the calls carry over. Second, the interruption falls between two units. A prompt that fails inside a unit (audot_doc.py:113, 115, 124 or 126) comes after that unit's earlier calls were made, and the resumed run makes them again.
- Resumption.EmptyFolderRecordedEmpty: assumes that no other candidate shares the folder's key. This holds in a file system, where the names in one folder are distinct; the model does not derive it from the tree.
- Context.UpdateContext: states the store growth only. The new summary is whatever the update prompt returns, and it replaces the old one.

=== FILE: analyzer.dfy ===
/** `CodebaseAnalyzer`: per-folder and per-file documentation, and the
    resumable walk that records each unit once, updates the context after
    it and saves progress. */
module Analyzer {
  import opened Strings
  import opened DocStore
  import opened Config
  import opened Backend
  import opened Context
  import opened Persistence
  import opened Traversal

  /** What a documentation entry describes; `Label` is the `content_type`
      handed to `update_context`. */
  datatype UnitKind = FolderUnit | FileUnit {
    function Label(): string {
      match this
      case FolderUnit => "folder"
      case FileUnit => "file"
    }
  }

  /** One language-model invocation, tagged with the folder or file path it
      serves. */
  datatype Call =
    | FolderPrompt(path: string)
    | ChunkPrompt(path: string, index: nat)
    | CombinePrompt(path: string)
    | MapReduceSummary(path: string)
    | RelationshipPrompt(path: string)
    | SummaryUpdate(path: string, kind: UnitKind)

  /** Documentation produced for one unit and the model calls that produced it. */
  datatype Documented = Documented(doc: string, calls: seq<Call>)

  /** Everything an analyzer instance owns: the documentation dictionary,
      the context manager, the model calls made so far and the save directory. */
  datatype Analyzer = Analyzer(docs: Store, ctx: ContextState, calls: seq<Call>, disk: Disk)

  /** A newly constructed analyzer over the save directory `disk`. */
  function Fresh(disk: Disk): Analyzer {
    Analyzer([], Initial, [], disk)
  }

  /** Number of per-chunk prompts in `calls`. */
  function ChunkCallCount(calls: seq<Call>): nat {
    if calls == [] then 0
    else (if calls[0].ChunkPrompt? then 1 else 0) + ChunkCallCount(calls[1..])
  }

  /** `analyze_folder`: empty documentation and no model call when no file
      matches; otherwise one folder prompt over the matching names joined by
      ", " and the context retrieved for the folder path. */
  function AnalyzeFolder(cfg: Config, b: Services, ctx: ContextState, path: string, files: seq<string>): (r: Documented)
    ensures r.calls == [] <==> (forall f :: f in files ==> !ShouldAnalyzeFile(cfg, f))
    ensures r.calls == [] ==> r.doc == ""
    ensures r.calls != [] ==> r.calls == [FolderPrompt(path)]
    ensures r.calls != [] ==>
      r.doc == b.folderPrompt(path, Join(", ", MatchingFiles(cfg, files)), RelevantContext(b, ctx, path))
  {
    var matching := MatchingFiles(cfg, files);
    if |matching| == 0 then Documented("", [])
    else
      assert matching[0] in files;
      Documented(b.folderPrompt(path, Join(", ", matching), RelevantContext(b, ctx, path)), [FolderPrompt(path)])
  }

  /** With a matching file, `analyze_folder` makes the one folder prompt,
      and the `files` argument it passes names every matching file. */
  lemma FolderPromptNamesMatchingFiles(cfg: Config, b: Services, ctx: ContextState, path: string, files: seq<string>, f: string)
    requires f in files && ShouldAnalyzeFile(cfg, f)
    ensures var names := Join(", ", MatchingFiles(cfg, files));
      && AnalyzeFolder(cfg, b, ctx, path, files)
         == Documented(b.folderPrompt(path, names, RelevantContext(b, ctx, path)), [FolderPrompt(path)])
      && Contains(names, f)
  {
    JoinContainsAll(", ", MatchingFiles(cfg, files));
  }

  /** Text that opens the documentation of a large file. */
  function LargeFileHeader(path: string): string {
    "Large file summary for " + path + ":\n"
  }

  /** Text between a large file's summary and its relationships. */
  const RelationshipsHeader := "\n\nRelationships:\n"

  /** `analyze_large_file`: a map-reduce summary of all chunks, then one
      relationship prompt; the result frames both texts. */
  function AnalyzeLargeFile(b: Services, ctx: ContextState, path: string, chunks: seq<string>): (r: Documented)
    ensures r.calls == [MapReduceSummary(path), RelationshipPrompt(path)]
    ensures var summary := b.mapReduce(chunks);
      var rel := b.relationshipPrompt(path, summary, RelevantContext(b, ctx, path));
      && |r.doc| == |path| + |summary| + |rel| + 42
      && LargeFileHeader(path) <= r.doc
      && r.doc[|LargeFileHeader(path)|..|LargeFileHeader(path)| + |summary|] == summary
      && EndsWith(r.doc, RelationshipsHeader + rel)
  {
    var summary := b.mapReduce(chunks);
    var rel := b.relationshipPrompt(path, summary, RelevantContext(b, ctx, path));
    Documented(LargeFileHeader(path) + summary + RelationshipsHeader + rel,
               [MapReduceSummary(path), RelationshipPrompt(path)])
  }

  /** One documentation text per chunk, in chunk order, all with the same context. */
  function ChunkDocs(b: Services, path: string, chunks: seq<string>, context: string): (ds: seq<string>)
    ensures |ds| == |chunks|
    ensures forall i :: 0 <= i < |chunks| ==> ds[i] == b.filePrompt(path, chunks[i], context)
  {
    seq(|chunks|, i requires 0 <= i < |chunks| => b.filePrompt(path, chunks[i], context))
  }

  /** The per-chunk prompt calls for `n` chunks, in order. */
  function ChunkCalls(path: string, n: nat): (cs: seq<Call>)
    ensures |cs| == n && ChunkCallCount(cs) == n
    ensures forall i :: 0 <= i < n ==> cs[i] == ChunkPrompt(path, i)
  {
    if n == 0 then [] else
      var prev := ChunkCalls(path, n - 1);
      ChunkCallCountAppend(prev, [ChunkPrompt(path, n - 1)]);
      prev + [ChunkPrompt(path, n - 1)]
  }

  lemma {:induction false} ChunkCallCountAppend(a: seq<Call>, c: seq<Call>)
    ensures ChunkCallCount(a + c) == ChunkCallCount(a) + ChunkCallCount(c)
  {
    if a != [] {
      assert (a + c)[0] == a[0] && (a + c)[1..] == a[1..] + c;
      ChunkCallCountAppend(a[1..], c);
    } else {
      assert a + c == c;
    }
  }

  /** `analyze_file`: read and split the file; more than `max_chunks` chunks
      takes the large-file path with no per-chunk prompt; otherwise one
      prompt per chunk, in order, and one combine prompt over the chunk
      documentation joined by blank lines. */
  function AnalyzeFile(cfg: Config, b: Services, ctx: ContextState, path: string): (r: Documented)
    ensures var chunks := b.split(b.read(path));
      && (|chunks| > MaxChunks(cfg) ==> r == AnalyzeLargeFile(b, ctx, path, chunks) && ChunkCallCount(r.calls) == 0)
      && (|chunks| <= MaxChunks(cfg) ==>
            && r.calls == ChunkCalls(path, |chunks|) + [CombinePrompt(path)]
            && ChunkCallCount(r.calls) == |chunks|
            && r.doc == b.combinePrompt(path, Join("\n\n", ChunkDocs(b, path, chunks, RelevantContext(b, ctx, path))),
                                        RelevantContext(b, ctx, path)))
  {
    var chunks := b.split(b.read(path));
    if |chunks| > MaxChunks(cfg) then
      var r := AnalyzeLargeFile(b, ctx, path, chunks);
      assert ChunkCallCount(r.calls) == ChunkCallCount(r.calls[1..]) == ChunkCallCount(r.calls[2..]) == 0;
      r
    else
      var context := RelevantContext(b, ctx, path);
      var chunkDocs := ChunkDocs(b, path, chunks, context);
      ChunkCallCountAppend(ChunkCalls(path, |chunks|), [CombinePrompt(path)]);
      Documented(b.combinePrompt(path, Join("\n\n", chunkDocs), context),
                 ChunkCalls(path, |chunks|) + [CombinePrompt(path)])
  }

  /** Every chunk's documentation reaches the combine prompt verbatim. */
  lemma CombineSeesEveryChunkDoc(b: Services, path: string, chunks: seq<string>, context: string, i: int)
    requires 0 <= i < |chunks|
    ensures Contains(Join("\n\n", ChunkDocs(b, path, chunks, context)), b.filePrompt(path, chunks[i], context))
  {
    JoinContainsParts("\n\n", ChunkDocs(b, path, chunks, context), i);
  }

  /** Store one unit's documentation, update the context with it, and save
      both to disk: lines 114-118 and 125-129 of the walk. */
  function Record(b: Services, s: Analyzer, key: string, kind: UnitKind, out: Documented): (r: Analyzer)
    ensures r.docs == Put(s.docs, key, out.doc)
    ensures r.ctx.store == s.ctx.store + [out.doc]
    ensures r.calls == s.calls + out.calls + [SummaryUpdate(key, kind)]
    ensures r.disk == SaveProgress(r.docs, r.ctx)
  {
    var docs := Put(s.docs, key, out.doc);
    var ctx := UpdateContext(b, s.ctx, out.doc, kind.Label());
    Analyzer(docs, ctx, s.calls + out.calls + [SummaryUpdate(key, kind)], SaveProgress(docs, ctx))
  }

  /** The `for file in files` loop of one folder. */
  function VisitFiles(cfg: Config, b: Services, rel: string, files: seq<string>, s: Analyzer): Analyzer {
    if files == [] then s
    else
      var path := PathJoin(rel, files[0]);
      var s1 := if ShouldAnalyzeFile(cfg, files[0]) && path !in Keys(s.docs)
                then Record(b, s, path, FileUnit, AnalyzeFile(cfg, b, s.ctx, path))
                else s;
      VisitFiles(cfg, b, rel, files[1..], s1)
  }

  /** The body of the walk loop for one folder. */
  function VisitFolder(cfg: Config, b: Services, v: Visit, s: Analyzer): Analyzer {
    if ShouldSkipFolder(cfg, v.rel) then s
    else if IsTestFolder(v.rel) then s
    else if v.rel !in Keys(s.docs) && |v.files| == 0 then s
    else
      var s1 := if v.rel in Keys(s.docs) then s
                else Record(b, s, v.rel, FolderUnit, AnalyzeFolder(cfg, b, s.ctx, v.rel, v.files));
      VisitFiles(cfg, b, v.rel, v.files, s1)
  }

  /** The walk loop over the folders, in walk order. */
  function Run(cfg: Config, b: Services, vs: seq<Visit>, s: Analyzer): Analyzer
    decreases |vs|
  {
    if vs == [] then s else Run(cfg, b, vs[1..], VisitFolder(cfg, b, vs[0], s))
  }

  /** The analyzer after `load_progress`. */
  function Resume(s: Analyzer): (r: Analyzer)
    ensures r.calls == s.calls && r.disk == s.disk
  {
    var l := LoadProgress(s.disk, s.docs, s.ctx);
    s.(docs := l.docs, ctx := l.ctx)
  }

  /** `analyze_codebase`: resume from the save directory, then walk the
      repository from its root. */
  function AnalyzeCodebase(cfg: Config, b: Services, root: Dir, s: Analyzer): Analyzer {
    Run(cfg, b, Walk(cfg, RootPath, root), Resume(s))
  }

  /** The result of `generate_documentation`. */
  datatype Documentation = Documentation(projectSummary: string, componentDocumentation: Store)

  /** `generate_documentation`: analyse the codebase, then one project prompt
      over all component documentation and the final running summary. */
  function GenerateDocumentation(cfg: Config, b: Services, root: Dir, s: Analyzer): (r: Documentation)
    ensures var a := AnalyzeCodebase(cfg, b, root, s);
      r.componentDocumentation == a.docs && r.projectSummary == b.projectPrompt(a.docs, a.ctx.summary)
  {
    var a := AnalyzeCodebase(cfg, b, root, s);
    Documentation(b.projectPrompt(a.docs, a.ctx.summary), a.docs)
  }
}

=== FILE: backend.dfy ===
/** The external collaborators, as uninterpreted total functions: the
    language model behind each prompt template, the file reader, the text
    splitter and the similarity search. Their outputs are arbitrary text;
    the model only relies on them being functions of their inputs. */
module Backend {
  import opened DocStore

  datatype Services = Services(
    /** Content of the file at a repository-relative path. */
    read: string -> string,
    /** The text splitter: content to an ordered list of chunks. */
    split: string -> seq<string>,
    /** Similarity search: stored texts, query, k to the k best fragments. */
    similar: (seq<string>, string, nat) -> seq<string>,
    /** `folder_prompt` run with (folder_path, files, context). */
    folderPrompt: (string, string, string) -> string,
    /** `file_prompt` run with (file_path, chunk, context). */
    filePrompt: (string, string, string) -> string,
    /** `combine_prompt` run with (file_path, chunk_docs, context). */
    combinePrompt: (string, string, string) -> string,
    /** The map-reduce summarize chain over a large file's chunks. */
    mapReduce: seq<string> -> string,
    /** The relationship prompt run with (file_path, summary, context). */
    relationshipPrompt: (string, string, string) -> string,
    /** The summary-update prompt run with (current_summary, new_content, content_type). */
    updatePrompt: (string, string, string) -> string,
    /** `project_prompt` run with (documentation, context_summary). */
    projectPrompt: (Store, string) -> string
  )
}

=== FILE: config.dfy ===
/** The run configuration and the two file/folder predicates built on it. */
module Config {
  import opened Options
  import opened Strings

  /** The options the analyzer reads. `file_extensions` is mandatory; the
      others fall back to defaults when absent. Model name, splitter sizes
      and prompt templates only shape the oracles and are not kept here. */
  datatype Config = Config(
    fileExtensions: seq<string>,
    maxChunks: Option<int>,
    skipFolders: Option<seq<string>>
  )

  /** `config.get('max_chunks', 10)`. */
  function MaxChunks(cfg: Config): int {
    cfg.maxChunks.GetOr(10)
  }

  /** `config.get('skip_folders', [])`. */
  function SkipFolders(cfg: Config): seq<string> {
    cfg.skipFolders.GetOr([])
  }

  /** `any(s in text for s in needles)`. */
  predicate AnyContained(needles: seq<string>, text: string) {
    |needles| > 0 && (Contains(text, needles[0]) || AnyContained(needles[1..], text))
  }

  /** `any(text.endswith(s) for s in suffixes)`. */
  predicate AnyEndsWith(suffixes: seq<string>, text: string) {
    |suffixes| > 0 && (EndsWith(text, suffixes[0]) || AnyEndsWith(suffixes[1..], text))
  }

  /** `should_skip_folder`: the relative path contains a configured skip entry. */
  predicate ShouldSkipFolder(cfg: Config, path: string) {
    AnyContained(SkipFolders(cfg), path)
  }

  /** `should_analyze_file`: the file name ends with a configured extension. */
  predicate ShouldAnalyzeFile(cfg: Config, name: string) {
    AnyEndsWith(cfg.fileExtensions, name)
  }

  /** The hard-coded test-folder exclusion: `src/test` or `src\test` inside the relative path. */
  predicate IsTestFolder(path: string) {
    Contains(path, "src/test") || Contains(path, "src\\test")
  }

  lemma {:induction false} AnyContainedIff(needles: seq<string>, text: string)
    ensures AnyContained(needles, text) <==> exists i :: 0 <= i < |needles| && Contains(text, needles[i])
  {
    if |needles| > 0 {
      AnyContainedIff(needles[1..], text);
      if exists i :: 0 <= i < |needles| && Contains(text, needles[i]) {
        var i :| 0 <= i < |needles| && Contains(text, needles[i]);
        if i > 0 {
          assert needles[1..][i - 1] == needles[i];
        }
      }
      if AnyContained(needles[1..], text) {
        var i :| 0 <= i < |needles| - 1 && Contains(text, needles[1..][i]);
        assert Contains(text, needles[i + 1]);
      }
    }
  }

  /** `should_skip_folder(p)` holds iff some configured skip entry is a substring of `p`. */
  lemma ShouldSkipFolderIff(cfg: Config, path: string)
    ensures ShouldSkipFolder(cfg, path) <==>
      exists i :: 0 <= i < |SkipFolders(cfg)| && Contains(path, SkipFolders(cfg)[i])
  {
    AnyContainedIff(SkipFolders(cfg), path);
  }

  /** Without `skip_folders` (absent or empty) nothing is skipped. */
  lemma NoSkipFoldersSkipsNothing(cfg: Config, path: string)
    requires cfg.skipFolders.None? || cfg.skipFolders == Some([])
    ensures !ShouldSkipFolder(cfg, path)
  {
  }

  /** A path that extends a skipped path is skipped too: skipping is a
      substring test, and text added around a substring keeps it. */
  lemma SkipExtends(cfg: Config, path: string, before: string, after: string)
    requires ShouldSkipFolder(cfg, path)
    ensures ShouldSkipFolder(cfg, before + path + after)
  {
    ShouldSkipFolderIff(cfg, path);
    var i :| 0 <= i < |SkipFolders(cfg)| && Contains(path, SkipFolders(cfg)[i]);
    ContainsExtend(path, SkipFolders(cfg)[i], before, after);
    ShouldSkipFolderIff(cfg, before + path + after);
  }

  /** Likewise every path extending a test folder's path is a test folder. */
  lemma TestFolderExtends(path: string, before: string, after: string)
    requires IsTestFolder(path)
    ensures IsTestFolder(before + path + after)
  {
    if Contains(path, "src/test") {
      ContainsExtend(path, "src/test", before, after);
    } else {
      ContainsExtend(path, "src\\test", before, after);
    }
  }

  lemma {:induction false} AnyEndsWithIff(suffixes: seq<string>, text: string)
    ensures AnyEndsWith(suffixes, text) <==> exists i :: 0 <= i < |suffixes| && EndsWith(text, suffixes[i])
  {
    if |suffixes| > 0 {
      AnyEndsWithIff(suffixes[1..], text);
      if exists i :: 0 <= i < |suffixes| && EndsWith(text, suffixes[i]) {
        var i :| 0 <= i < |suffixes| && EndsWith(text, suffixes[i]);
        if i > 0 {
          assert suffixes[1..][i - 1] == suffixes[i];
        }
      }
      if AnyEndsWith(suffixes[1..], text) {
        var i :| 0 <= i < |suffixes| - 1 && EndsWith(text, suffixes[1..][i]);
        assert EndsWith(text, suffixes[i + 1]);
      }
    }
  }

  /** `should_analyze_file(f)` holds iff `f` ends with some configured extension. */
  lemma ShouldAnalyzeFileIff(cfg: Config, name: string)
    ensures ShouldAnalyzeFile(cfg, name) <==>
      exists i :: 0 <= i < |cfg.fileExtensions| && EndsWith(name, cfg.fileExtensions[i])
  {
    AnyEndsWithIff(cfg.fileExtensions, name);
  }

  /** `a` is `b` with some elements left out, the rest kept in order. */
  ghost predicate IsSubsequence<T>(a: seq<T>, b: seq<T>)
    decreases |b|
  {
    if a == [] then true
    else if b == [] then false
    else (a[0] == b[0] && IsSubsequence(a[1..], b[1..])) || IsSubsequence(a, b[1..])
  }

  /** `[f for f in files if should_analyze_file(f)]`: the matching files, in order. */
  function MatchingFiles(cfg: Config, files: seq<string>): (r: seq<string>)
    ensures |r| <= |files|
    ensures forall f :: f in r <==> f in files && ShouldAnalyzeFile(cfg, f)
  {
    if files == [] then []
    else if ShouldAnalyzeFile(cfg, files[0]) then [files[0]] + MatchingFiles(cfg, files[1..])
    else MatchingFiles(cfg, files[1..])
  }

  /** The filtered list keeps the listing order and lists each matching file
      as often as `files` does, and no other file; the two facts together
      determine it. */
  lemma {:induction false} MatchingFilesInOrder(cfg: Config, files: seq<string>)
    ensures IsSubsequence(MatchingFiles(cfg, files), files)
    ensures forall f :: (multiset(MatchingFiles(cfg, files))[f] ==
      if ShouldAnalyzeFile(cfg, f) then multiset(files)[f] else 0)
    decreases |files|
  {
    if files != [] {
      MatchingFilesInOrder(cfg, files[1..]);
      var rest := MatchingFiles(cfg, files[1..]);
      assert files == [files[0]] + files[1..];
      if ShouldAnalyzeFile(cfg, files[0]) {
        assert ([files[0]] + rest)[1..] == rest;
      }
    }
  }
}

=== FILE: context.dfy ===
/** `ContextManager`: the growing store of analysed texts and the running
    project summary that every later prompt is grounded on. */
module Context {
  import opened Strings
  import opened Backend

  /** The similarity store's texts, in insertion order, and the running summary. */
  datatype ContextState = ContextState(store: seq<string>, summary: string)

  /** State of a freshly constructed context manager. */
  const Initial := ContextState(["Initial context"], "Initial project context.")

  /** Number of fragments `get_relevant_context` asks for by default. */
  const TopK: nat := 3

  /** `update_context`: the new text joins the store and the summary is
      replaced (not merged) by the model's rewrite of it. */
  function UpdateContext(b: Services, c: ContextState, content: string, contentType: string): (r: ContextState)
    ensures |r.store| == |c.store| + 1
    ensures r.store[..|c.store|] == c.store && r.store[|c.store|] == content
  {
    ContextState(c.store + [content], b.updatePrompt(c.summary, content, contentType))
  }

  /** `get_relevant_context`: the retrieved fragments joined by newlines. */
  function RelevantContext(b: Services, c: ContextState, query: string): (r: string)
    ensures forall frag :: frag in b.similar(c.store, query, TopK) ==> Contains(r, frag)
  {
    var frags := b.similar(c.store, query, TopK);
    JoinContainsAll("\n", frags);
    Join("\n", frags)
  }

  lemma JoinContainsAll(sep: string, parts: seq<string>)
    ensures forall p :: p in parts ==> Contains(Join(sep, parts), p)
  {
    forall p | p in parts
      ensures Contains(Join(sep, parts), p)
    {
      var i :| 0 <= i < |parts| && parts[i] == p;
      JoinContainsParts(sep, parts, i);
    }
  }
}

=== FILE: docstore.dfy ===
/** The documentation dictionary: relative path -> documentation text,
    kept in insertion order as Python's `dict` does. */
module DocStore {
  import opened Options

  /** One entry: the relative path of a folder or file and its documentation. */
  datatype Entry = Entry(key: string, doc: string)

  /** The dictionary as its entries in insertion order. */
  type Store = seq<Entry>

  /** The keys in insertion order. */
  function Keys(d: Store): (ks: seq<string>)
    ensures |ks| == |d|
    ensures forall i :: 0 <= i < |d| ==> ks[i] == d[i].key
  {
    seq(|d|, i requires 0 <= i < |d| => d[i].key)
  }

  /** The documentation texts in insertion order. */
  function Docs(d: Store): (vs: seq<string>)
    ensures |vs| == |d|
    ensures forall i :: 0 <= i < |d| ==> vs[i] == d[i].doc
  {
    seq(|d|, i requires 0 <= i < |d| => d[i].doc)
  }

  /** No key appears twice, as in any dictionary. */
  ghost predicate UniqueKeys(d: Store) {
    forall i, j :: 0 <= i < j < |d| ==> d[i].key != d[j].key
  }

  /** Python's `d.get(k)`. */
  function Lookup(d: Store, k: string): (r: Option<string>)
    ensures r.Some? <==> k in Keys(d)
  {
    if d == [] then None
    else if d[0].key == k then Some(d[0].doc)
    else
      assert k in Keys(d) ==> k in Keys(d[1..]) by {
        if k in Keys(d) { KeysTail(d, k); }
      }
      Lookup(d[1..], k)
  }

  /** Position of the first entry with key `k`. */
  function IndexOf(d: Store, k: string): (i: nat)
    requires k in Keys(d)
    ensures i < |d| && d[i].key == k
    ensures forall j :: 0 <= j < i ==> d[j].key != k
  {
    if d[0].key == k then 0
    else
      KeysTail(d, k);
      1 + IndexOf(d[1..], k)
  }

  /** A key present in the dictionary but not first is present in the rest. */
  lemma KeysTail(d: Store, k: string)
    requires k in Keys(d) && d[0].key != k
    ensures k in Keys(d[1..])
  {
    var j :| 0 <= j < |d| && Keys(d)[j] == k;
    assert Keys(d[1..])[j - 1] == k;
  }

  /** Python's `d[k] = v`: overwrite in place when present, else append. */
  function Put(d: Store, k: string, v: string): Store {
    if k in Keys(d) then d[IndexOf(d, k) := Entry(k, v)] else d + [Entry(k, v)]
  }

  /** Looking up the key just written gives the written value. */
  lemma {:induction false} PutLookupSame(d: Store, k: string, v: string)
    ensures Lookup(Put(d, k, v), k) == Some(v)
  {
    if k in Keys(d) {
      LookupAt(Put(d, k, v), IndexOf(d, k));
    } else {
      LookupAt(d + [Entry(k, v)], |d|);
    }
  }

  /** Writing one key leaves every other key's lookup unchanged. */
  lemma {:induction false} PutLookupOther(d: Store, k: string, v: string, k': string)
    requires k' != k
    ensures Lookup(Put(d, k, v), k') == Lookup(d, k')
  {
    var d' := Put(d, k, v);
    assert forall j :: 0 <= j < |d| ==> (d'[j].key == k' <==> d[j].key == k');
    if k' in Keys(d) {
      LookupAt(d, IndexOf(d, k'));
      LookupAt(d', IndexOf(d, k'));
    } else {
      assert k' !in Keys(d');
    }
  }

  /** Lookup returns the first entry carrying the key. */
  lemma {:induction false} LookupAt(d: Store, i: nat)
    requires i < |d|
    requires forall j :: 0 <= j < i ==> d[j].key != d[i].key
    ensures Lookup(d, d[i].key) == Some(d[i].doc)
  {
    if i > 0 {
      LookupAt(d[1..], i - 1);
    }
  }

  /** Entries appended after a present key do not change its lookup. */
  lemma LookupPrefix(d: Store, e: Store, k: string)
    requires k in Keys(d)
    ensures Lookup(d + e, k) == Lookup(d, k)
  {
    var i := IndexOf(d, k);
    LookupAt(d, i);
    LookupAt(d + e, i);
  }

  /** Writing an absent key appends one entry at the end and keeps keys unique. */
  lemma PutAbsent(d: Store, k: string, v: string)
    requires UniqueKeys(d) && k !in Keys(d)
    ensures Put(d, k, v) == d + [Entry(k, v)]
    ensures UniqueKeys(Put(d, k, v))
  {
  }
}

=== FILE: markdown.dfy ===
/** `json_to_markdown`: one markdown section per documentation entry, in
    dictionary order. */
module Markdown {
  import opened Strings
  import opened DocStore

  /** The section of one entry: a level-2 header holding the key's final
      path component, a blank line, the documentation, a blank line. */
  function Section(e: Entry): string {
    "## " + Basename(e.key) + "\n\n" + e.doc + "\n\n"
  }

  /** The sections of all entries, concatenated in dictionary order. */
  function Sections(d: Store): string {
    if d == [] then "" else Sections(d[..|d| - 1]) + Section(d[|d| - 1])
  }

  /** Total size the sections of `d` must have: header text, documentation
      and seven characters of markup per entry. */
  function MarkdownSize(d: Store): nat {
    if d == [] then 0 else MarkdownSize(d[..|d| - 1]) + |Basename(d[|d| - 1].key)| + |d[|d| - 1].doc| + 7
  }

  /** The loop of `json_to_markdown`: start empty and append each entry's
      header, then its documentation. */
  method JsonToMarkdown(d: Store) returns (md: string)
    ensures md == Sections(d)
    ensures |md| == MarkdownSize(d)
    ensures d == [] ==> md == ""
  {
    md := "";
    var i := 0;
    while i < |d|
      invariant 0 <= i <= |d|
      invariant md == Sections(d[..i])
      invariant |md| == MarkdownSize(d[..i])
    {
      var fileName := Basename(d[i].key);
      md := md + "## " + fileName + "\n\n";
      md := md + d[i].doc + "\n\n";
      assert d[..i + 1][..i] == d[..i];
      i := i + 1;
    }
    assert d[..|d|] == d;
  }

  /** Appending an entry appends exactly its section. */
  lemma SectionsAppend(d: Store, e: Entry)
    ensures Sections(d + [e]) == Sections(d) + Section(e)
  {
    assert (d + [e])[..|d|] == d;
  }

  /** Each section begins with `## ` and the base name of the key, which
      contains no '/', and ends with the documentation verbatim and a blank line. */
  lemma SectionShape(e: Entry)
    ensures var s := Section(e);
      && "## " + Basename(e.key) + "\n\n" <= s
      && EndsWith(s, e.doc + "\n\n")
      && IsFinalComponent(e.key, Basename(e.key))
  {
    BasenameIsFinalComponent(e.key);
    var s := Section(e);
    assert s == ("## " + Basename(e.key) + "\n\n") + (e.doc + "\n\n");
  }

  /** The sections of `d1 + d2` are those of `d1` followed by those of `d2`. */
  lemma {:induction false} SectionsConcat(d1: Store, d2: Store)
    ensures Sections(d1 + d2) == Sections(d1) + Sections(d2)
    decreases |d2|
  {
    if d2 == [] {
      assert d1 + d2 == d1;
    } else {
      var last := d2[|d2| - 1];
      var init := d2[..|d2| - 1];
      assert d1 + d2 == (d1 + init) + [last];
      SectionsAppend(d1 + init, last);
      SectionsConcat(d1, init);
      SectionsAppend(init, last);
      assert init + [last] == d2;
    }
  }

  /** A file documented in the folder at `rel` gets its own name as header:
      root files (`./App.java`) and nested ones (`src/App.java`) alike. */
  lemma FileSectionHeader(rel: string, name: string, doc: string)
    requires rel != [] && rel[|rel| - 1] != '/'
    requires forall j :: 0 <= j < |name| ==> name[j] != '/'
    ensures Section(Entry(PathJoin(rel, name), doc)) == "## " + name + "\n\n" + doc + "\n\n"
  {
    BasenameOfPathJoin(rel, name);
  }
}

=== FILE: options.dfy ===
/** The optional value used for dictionary lookups and absent files. */
module Options {

  datatype Option<+T> = None | Some(value: T) {

    /** The carried value, or `default` when there is none (Python's `dict.get(k, default)`). */
    function GetOr(default: T): T {
      match this
      case Some(v) => v
      case None => default
    }
  }
}

=== FILE: persistence.dfy ===
/** The two progress files of the save directory: `documentation.json`
    (the documentation dictionary) and `context_manager.pkl` (the context
    state). A file is either absent or holds what was last written to it. */
module Persistence {
  import opened Options
  import opened DocStore
  import opened Context

  datatype Disk = Disk(documentation: Option<Store>, contextState: Option<ContextState>)

  /** A save directory holding neither file. */
  const EmptyDisk := Disk(None, None)

  /** `save_progress`: both files are overwritten with the current state. */
  function SaveProgress(docs: Store, ctx: ContextState): (r: Disk)
    ensures r.documentation.Some? && r.contextState.Some?
  {
    Disk(Some(docs), Some(ctx))
  }

  /** What the analyzer holds after trying to resume. */
  datatype Loaded = Loaded(resumed: bool, docs: Store, ctx: ContextState)

  /** `ContextManager.load_state`: the saved context if its file exists, else the current one. */
  function LoadState(disk: Disk, ctx: ContextState): (r: ContextState)
    ensures disk.contextState.None? ==> r == ctx
  {
    match disk.contextState
    case Some(saved) => saved
    case None => ctx
  }

  /** `load_progress`: with no documentation file it reports false and changes
      nothing, even when a context file exists; otherwise it takes the saved
      documentation and then loads the context state. */
  function LoadProgress(disk: Disk, docs: Store, ctx: ContextState): (r: Loaded)
    ensures r.resumed <==> disk.documentation.Some?
    ensures !r.resumed ==> r.docs == docs && r.ctx == ctx
    ensures r.resumed ==> r.docs == disk.documentation.value
  {
    match disk.documentation
    case None => Loaded(false, docs, ctx)
    case Some(saved) => Loaded(true, saved, LoadState(disk, ctx))
  }

  /** Saving then loading restores exactly the saved documentation and context. */
  lemma SaveLoadRoundTrip(docs: Store, ctx: ContextState, docs': Store, ctx': ContextState)
    ensures LoadProgress(SaveProgress(docs, ctx), docs', ctx') == Loaded(true, docs, ctx)
  {
  }
}

=== FILE: resume.dfy ===
/** What one run of `analyze_codebase` promises, and why a run interrupted
    at any point and started again ends where an uninterrupted run ends. */
module Resumption {
  import opened Options
  import opened Strings
  import opened DocStore
  import opened Config
  import opened Backend
  import opened Persistence
  import opened Traversal
  import opened Analyzer
  import opened Units

  /** With unique keys, the entries appended after `prior` carry keys `prior` lacks. */
  lemma AppendedKeysAreNew(prior: Store, r: Store)
    requires UniqueKeys(r) && |prior| <= |r| && r[..|prior|] == prior
    ensures forall k :: k in Keys(r[|prior|..]) ==> k !in Keys(prior)
  {
    forall k | k in Keys(r[|prior|..])
      ensures k !in Keys(prior)
    {
      var j :| 0 <= j < |r| - |prior| && r[|prior|..][j].key == k;
      assert r[|prior| + j].key == k;
    }
  }

  /** The contract of one run, starting from whatever `load_progress` left:
      entries already present keep their place and value; keys stay unique;
      the keys afterwards are the prior keys plus the walk's candidates; the
      context store received each new documentation once, in insertion
      order; every model call made serves a newly inserted key (none a key
      that was present); the summary updates are the new keys in insertion
      order; and the save directory holds the final state, or, when nothing
      was inserted, nothing changed at all. */
  lemma AnalyzeCodebaseContract(cfg: Config, b: Services, root: Dir, s: Analyzer)
    requires UniqueKeys(Resume(s).docs)
    ensures var start := Resume(s);
      var r := AnalyzeCodebase(cfg, b, root, s);
      var n := |start.docs|;
      && start.docs <= r.docs
      && UniqueKeys(r.docs)
      && (forall k :: k in Keys(r.docs) <==>
            k in Keys(start.docs) || k in UnitKeys(UnitsOf(cfg, Walk(cfg, RootPath, root))))
      && r.ctx.store == start.ctx.store + Docs(r.docs[n..])
      && start.calls <= r.calls
      && (forall c :: c in r.calls[|start.calls|..] ==> c.path in Keys(r.docs[n..]) && c.path !in Keys(start.docs))
      && Updates(r.calls[|start.calls|..]) == Keys(r.docs[n..])
      && (|r.docs| > n ==> r.disk == SaveProgress(r.docs, r.ctx))
      && (|r.docs| == n ==> r == start)
  {
    var start := Resume(s);
    var vs := Walk(cfg, RootPath, root);
    RunIsProcessAll(cfg, b, vs, start);
    ProcessAllGrows(cfg, b, UnitsOf(cfg, vs), start);
    ProcessAllKeys(cfg, b, UnitsOf(cfg, vs), start);
    var r := AnalyzeCodebase(cfg, b, root, s);
    AppendedKeysAreNew(start.docs, r.docs);
  }

  /** Every key a run inserts belongs to a candidate whose folder, and every
      folder above it, is neither skipped nor a test folder. */
  lemma NewKeysAvoidExcludedFolders(cfg: Config, b: Services, root: Dir, s: Analyzer)
    requires UniqueKeys(Resume(s).docs)
    ensures var r := AnalyzeCodebase(cfg, b, root, s);
      forall k :: k in Keys(r.docs) && k !in Keys(Resume(s).docs) ==>
        exists u :: (u in UnitsOf(cfg, Walk(cfg, RootPath, root)) && u.Key() == k
          && (forall p :: p <= u.folder ==> !ShouldSkipFolder(cfg, p) && !IsTestFolder(p)))
  {
    var us := UnitsOf(cfg, Walk(cfg, RootPath, root));
    AnalyzeCodebaseContract(cfg, b, root, s);
    UnitsAvoidExcludedFolders(cfg, Walk(cfg, RootPath, root));
    var r := AnalyzeCodebase(cfg, b, root, s);
    forall k | k in Keys(r.docs) && k !in Keys(Resume(s).docs)
      ensures exists u :: (u in us && u.Key() == k
          && (forall p :: p <= u.folder ==> !ShouldSkipFolder(cfg, p) && !IsTestFolder(p)))
    {
      var i :| 0 <= i < |us| && UnitKeys(us)[i] == k;
      assert us[i] in us && us[i].Key() == k;
    }
  }

  /** After a run, every visited folder that is neither skipped nor a test
      folder and holds files has its entry, whether or not a file matches. */
  lemma KeptFolderDocumented(cfg: Config, b: Services, root: Dir, s: Analyzer, v: Visit)
    requires UniqueKeys(Resume(s).docs)
    requires v in Walk(cfg, RootPath, root)
    requires !ShouldSkipFolder(cfg, v.rel) && !IsTestFolder(v.rel) && |v.files| > 0
    ensures v.rel in Keys(AnalyzeCodebase(cfg, b, root, s).docs)
  {
    var us := UnitsOf(cfg, Walk(cfg, RootPath, root));
    KeptFolderCandidate(cfg, Walk(cfg, RootPath, root), v);
    AnalyzeCodebaseContract(cfg, b, root, s);
    var i :| 0 <= i < |us| && us[i] == FolderWork(v.rel, v.files);
    assert UnitKeys(us)[i] == v.rel;
  }

  /** After a run, every matching file of such a folder has an entry under
      `os.path.join(folder, name)`. */
  lemma KeptFileDocumented(cfg: Config, b: Services, root: Dir, s: Analyzer, v: Visit, f: string)
    requires UniqueKeys(Resume(s).docs)
    requires v in Walk(cfg, RootPath, root)
    requires !ShouldSkipFolder(cfg, v.rel) && !IsTestFolder(v.rel)
    requires f in v.files && ShouldAnalyzeFile(cfg, f)
    ensures PathJoin(v.rel, f) in Keys(AnalyzeCodebase(cfg, b, root, s).docs)
  {
    var us := UnitsOf(cfg, Walk(cfg, RootPath, root));
    KeptFileCandidate(cfg, Walk(cfg, RootPath, root), v, f);
    AnalyzeCodebaseContract(cfg, b, root, s);
    var j :| 0 <= j < |us| && us[j] == FileWork(v.rel, f);
    assert UnitKeys(us)[j] == PathJoin(v.rel, f);
  }

  /** A kept folder with files, none of which matches an extension, that was
      not documented before is recorded with the empty documentation. The
      premise that no other candidate carries the folder's key holds in a
      file system, where the names in one folder are distinct. */
  lemma EmptyFolderRecordedEmpty(cfg: Config, b: Services, root: Dir, s: Analyzer, v: Visit)
    requires UniqueKeys(Resume(s).docs)
    requires v in Walk(cfg, RootPath, root)
    requires !ShouldSkipFolder(cfg, v.rel) && !IsTestFolder(v.rel) && |v.files| > 0
    requires forall f :: f in v.files ==> !ShouldAnalyzeFile(cfg, f)
    requires v.rel !in Keys(Resume(s).docs)
    requires forall u :: u in UnitsOf(cfg, Walk(cfg, RootPath, root)) && u.Key() == v.rel ==> u == FolderWork(v.rel, v.files)
    ensures Lookup(AnalyzeCodebase(cfg, b, root, s).docs, v.rel) == Some("")
  {
    var vs := Walk(cfg, RootPath, root);
    var us := UnitsOf(cfg, vs);
    KeptFolderCandidate(cfg, vs, v);
    RunIsProcessAll(cfg, b, vs, Resume(s));
    var i :| 0 <= i < |us| && us[i] == FolderWork(v.rel, v.files);
    ProcessAllRecordsEmptyFolder(cfg, b, us, Resume(s), i);
  }

  /** The test-folder check looks at the folder path only: in a kept folder
      `src`, a matching file `test.java` is documented under `src/test.java`,
      a key that itself contains "src/test". */
  lemma TestNamedFileKept(cfg: Config, b: Services, root: Dir, s: Analyzer, v: Visit)
    requires UniqueKeys(Resume(s).docs)
    requires v in Walk(cfg, RootPath, root) && v.rel == "src" && !ShouldSkipFolder(cfg, "src")
    requires "test.java" in v.files && ShouldAnalyzeFile(cfg, "test.java")
    ensures var r := AnalyzeCodebase(cfg, b, root, s);
      "src/test.java" in Keys(r.docs) && IsTestFolder("src/test.java")
  {
    TestNamedFileStrings();
    KeptFileDocumented(cfg, b, root, s, v, "test.java");
  }

  lemma TestNamedFileStrings()
    ensures !IsTestFolder("src") && IsTestFolder("src/test.java")
    ensures PathJoin("src", "test.java") == "src/test.java"
  {
    assert "src/test.java"[..8] == "src/test";
  }

  /** Files at the repository root are keyed `./name`; sub-folder keys have no `./`. */
  lemma RootFileKey(name: string, sub: string)
    requires |name| > 0 && name[0] != '/'
    ensures PathJoin(RootPath, name) == "./" + name
    ensures ChildPath(RootPath, sub) == sub
  {
  }

  /** Interrupt a fresh run after its first `j` candidates (a crash while the
      next unit is in flight loses only that unit), then start a fresh
      analyzer on the same save directory: it ends with the same
      documentation, context and saved state as a run that was never
      interrupted, and the two runs together make exactly the model calls of
      the uninterrupted run, none twice. */
  lemma ResumeAfterInterruption(cfg: Config, b: Services, root: Dir, disk: Disk, j: nat)
    requires disk.documentation.Some? ==> UniqueKeys(disk.documentation.value)
    requires j <= |UnitsOf(cfg, Walk(cfg, RootPath, root))|
    ensures var us := UnitsOf(cfg, Walk(cfg, RootPath, root));
      var whole := AnalyzeCodebase(cfg, b, root, Fresh(disk));
      var crashed := ProcessAll(cfg, b, us[..j], Resume(Fresh(disk)));
      var resumed := AnalyzeCodebase(cfg, b, root, Fresh(crashed.disk));
      && resumed.docs == whole.docs && resumed.ctx == whole.ctx && resumed.disk == whole.disk
      && crashed.calls + resumed.calls == whole.calls
  {
    var vs := Walk(cfg, RootPath, root);
    var us := UnitsOf(cfg, vs);
    var start := Resume(Fresh(disk));
    var crashed := ProcessAll(cfg, b, us[..j], start);
    RunIsProcessAll(cfg, b, vs, start);
    ProcessAllGrows(cfg, b, us[..j], start);
    if |crashed.docs| > |start.docs| {
      var c0 := crashed.(calls := []);
      SaveLoadRoundTrip(crashed.docs, crashed.ctx, [], Fresh(crashed.disk).ctx);
      assert Resume(Fresh(crashed.disk)) == c0;
      RunIsProcessAll(cfg, b, vs, c0);
      ResumeStep(cfg, b, us, j, start);
    } else {
      assert crashed == start;
    }
  }

  /** Processing every candidate again from the state an interrupted run
      saved, with an empty log, redoes nothing of the first `j` candidates
      and ends where the uninterrupted run ends. */
  lemma ResumeStep(cfg: Config, b: Services, us: seq<Unit>, j: nat, start: Analyzer)
    requires UniqueKeys(start.docs) && j <= |us|
    ensures var crashed := ProcessAll(cfg, b, us[..j], start);
      var resumed := ProcessAll(cfg, b, us, crashed.(calls := []));
      var whole := ProcessAll(cfg, b, us, start);
      && resumed.docs == whole.docs && resumed.ctx == whole.ctx && resumed.disk == whole.disk
      && crashed.calls + resumed.calls == whole.calls
  {
    var crashed := ProcessAll(cfg, b, us[..j], start);
    var c0 := crashed.(calls := []);
    assert us == us[..j] + us[j..];
    ProcessAllAppend(cfg, b, us[..j], us[j..], start);
    ProcessAllAppend(cfg, b, us[..j], us[j..], c0);
    ProcessAllKeys(cfg, b, us[..j], start);
    forall i | 0 <= i < |us[..j]|
      ensures us[..j][i].Key() in Keys(c0.docs)
    {
      assert UnitKeys(us[..j])[i] == us[..j][i].Key();
    }
    ProcessAllKnown(cfg, b, us[..j], c0);
    ProcessAllIgnoresLog(cfg, b, us[j..], crashed);
  }

  /** Running again on the save directory a finished run left documents
      nothing, calls no model and changes nothing. */
  lemma RerunDoesNothing(cfg: Config, b: Services, root: Dir, disk: Disk)
    requires disk.documentation.Some? ==> UniqueKeys(disk.documentation.value)
    ensures var whole := AnalyzeCodebase(cfg, b, root, Fresh(disk));
      var again := AnalyzeCodebase(cfg, b, root, Fresh(whole.disk));
      again.docs == whole.docs && again.ctx == whole.ctx && again.calls == []
  {
    var vs := Walk(cfg, RootPath, root);
    var us := UnitsOf(cfg, vs);
    assert us[..|us|] == us;
    RunIsProcessAll(cfg, b, vs, Resume(Fresh(disk)));
    ResumeAfterInterruption(cfg, b, root, disk, |us|);
    var whole := AnalyzeCodebase(cfg, b, root, Fresh(disk));
    var again := AnalyzeCodebase(cfg, b, root, Fresh(whole.disk));
    assert whole.calls + again.calls == whole.calls;
    assert |again.calls| == 0;
  }

  /** `generate_documentation` returns every loaded entry in its place with
      its value, exactly the loaded keys plus the walk's candidates' keys,
      each once, and a project summary computed from exactly that
      documentation. */
  lemma GenerateDocumentationContract(cfg: Config, b: Services, root: Dir, s: Analyzer)
    requires UniqueKeys(Resume(s).docs)
    ensures var start := Resume(s);
      var r := GenerateDocumentation(cfg, b, root, s);
      && start.docs <= r.componentDocumentation
      && UniqueKeys(r.componentDocumentation)
      && (forall k :: k in Keys(r.componentDocumentation) <==>
            k in Keys(start.docs) || k in UnitKeys(UnitsOf(cfg, Walk(cfg, RootPath, root))))
      && r.projectSummary == b.projectPrompt(r.componentDocumentation, AnalyzeCodebase(cfg, b, root, s).ctx.summary)
  {
    AnalyzeCodebaseContract(cfg, b, root, s);
  }
}

=== FILE: scenario.dfy ===
/** A worked instance: a repository with one source folder holding one Java
    file that splits into three chunks, and one configured-skip folder. */
module Scenario {
  import opened Options
  import opened Strings
  import opened DocStore
  import opened Config
  import opened Backend
  import opened Persistence
  import opened Traversal
  import opened Analyzer

  const ExampleConfig := Config([".java"], Some(10), Some(["build"]))

  const ExampleRepository :=
    Dir("repo", [], [Dir("src", ["App.java"], []), Dir("build", ["Gen.java"], [])])

  /** The folders the walk yields: the root, `src`, and `build` (yielded,
      then pruned). */
  const ExampleVisits :=
    [Visit(".", "repo", []), Visit("src", "src", ["App.java"]), Visit("build", "build", ["Gen.java"])]

  lemma ExampleWalk()
    ensures Walk(ExampleConfig, RootPath, ExampleRepository) == ExampleVisits
  {
    var cfg := ExampleConfig;
    var src := Dir("src", ["App.java"], []);
    var build := Dir("build", ["Gen.java"], []);
    assert !ShouldSkipFolder(cfg, ".") && !ShouldSkipFolder(cfg, "src");
    assert ShouldSkipFolder(cfg, "build") by {
      assert "build"[..5] == "build";
    }
    assert RemoveGit([src, build]) == [src, build];
    assert Walk(cfg, "src", src) == [Visit("src", "src", ["App.java"])];
    assert Walk(cfg, "build", build) == [Visit("build", "build", ["Gen.java"])];
  }

  /** The folder `src` is documented first, with one folder prompt. */
  lemma ExampleFolderStep(b: Services, s0: Analyzer)
    requires s0 == Fresh(EmptyDisk)
    ensures var s1 := Record(b, s0, "src", FolderUnit, AnalyzeFolder(ExampleConfig, b, s0.ctx, "src", ["App.java"]));
      && Keys(s1.docs) == ["src"]
      && s1.calls == [FolderPrompt("src"), SummaryUpdate("src", FolderUnit)]
  {
    var cfg := ExampleConfig;
    assert ShouldAnalyzeFile(cfg, "App.java") by {
      assert "App.java"[3..] == ".java";
    }
    var folder := AnalyzeFolder(cfg, b, s0.ctx, "src", ["App.java"]);
    assert folder.calls == [FolderPrompt("src")];
  }

  /** Then `src/App.java`, with three chunk prompts and one combine prompt. */
  lemma ExampleFileStep(b: Services, s1: Analyzer)
    requires Keys(s1.docs) == ["src"]
    requires |b.split(b.read("src/App.java"))| == 3
    ensures var s2 := VisitFiles(ExampleConfig, b, "src", ["App.java"], s1);
      && Keys(s2.docs) == ["src", "src/App.java"]
      && s2.calls == s1.calls + [ChunkPrompt("src/App.java", 0), ChunkPrompt("src/App.java", 1),
                                 ChunkPrompt("src/App.java", 2), CombinePrompt("src/App.java"),
                                 SummaryUpdate("src/App.java", FileUnit)]
  {
    var cfg := ExampleConfig;
    assert ShouldAnalyzeFile(cfg, "App.java") by {
      assert "App.java"[3..] == ".java";
    }
    var path := PathJoin("src", "App.java");
    assert path == "src/App.java";
    var file := AnalyzeFile(cfg, b, s1.ctx, path);
    assert file.calls == ChunkCalls(path, 3) + [CombinePrompt(path)];
    var s2 := Record(b, s1, path, FileUnit, file);
    assert VisitFiles(cfg, b, "src", ["App.java"], s1) == s2;
  }

  /** Documentation and calls of the single source folder. */
  lemma ExampleSourceFolder(b: Services, s0: Analyzer)
    requires s0 == Fresh(EmptyDisk)
    requires |b.split(b.read("src/App.java"))| == 3
    ensures var r := VisitFolder(ExampleConfig, b, ExampleVisits[1], s0);
      && Keys(r.docs) == ["src", "src/App.java"]
      && r.calls == [FolderPrompt("src"), SummaryUpdate("src", FolderUnit),
                     ChunkPrompt("src/App.java", 0), ChunkPrompt("src/App.java", 1), ChunkPrompt("src/App.java", 2),
                     CombinePrompt("src/App.java"), SummaryUpdate("src/App.java", FileUnit)]
  {
    var cfg := ExampleConfig;
    ExampleSourceKept(b, s0);
    ExampleFolderStep(b, s0);
    var s1 := Record(b, s0, "src", FolderUnit, AnalyzeFolder(cfg, b, s0.ctx, "src", ["App.java"]));
    ExampleFileStep(b, s1);
  }

  /** `src` passes every guard of the walk loop: it is documented as a
      folder, then its files are visited. */
  lemma ExampleSourceKept(b: Services, s: Analyzer)
    requires "src" !in Keys(s.docs)
    ensures VisitFolder(ExampleConfig, b, ExampleVisits[1], s)
         == VisitFiles(ExampleConfig, b, "src", ["App.java"],
                       Record(b, s, "src", FolderUnit, AnalyzeFolder(ExampleConfig, b, s.ctx, "src", ["App.java"])))
  {
    assert !ShouldSkipFolder(ExampleConfig, "src");
    assert !IsTestFolder("src");
  }

  /** A fresh run documents exactly the folder `src` and the file
      `src/App.java`, in that order; the skipped folder and its file get no
      entry; the calls are the folder prompt, three chunk prompts, the combine
      prompt, and one summary update after each insertion. */
  lemma TwoFileRepository(b: Services)
    requires |b.split(b.read("src/App.java"))| == 3
    ensures var r := AnalyzeCodebase(ExampleConfig, b, ExampleRepository, Fresh(EmptyDisk));
      && Keys(r.docs) == ["src", "src/App.java"]
      && r.calls == [FolderPrompt("src"), SummaryUpdate("src", FolderUnit),
                     ChunkPrompt("src/App.java", 0), ChunkPrompt("src/App.java", 1), ChunkPrompt("src/App.java", 2),
                     CombinePrompt("src/App.java"), SummaryUpdate("src/App.java", FileUnit)]
  {
    var cfg := ExampleConfig;
    var vs := ExampleVisits;
    var s0 := Fresh(EmptyDisk);
    ExampleWalk();
    ExampleSourceFolder(b, s0);
    assert Resume(s0) == s0;
    ExampleRootStep(b, s0);
    var s2 := VisitFolder(cfg, b, vs[1], s0);
    ExampleSkippedStep(b, s2);
    assert Run(cfg, b, vs[1..], s0) == s2;
  }

  /** The root folder lists no files, so the walk passes over it. */
  lemma ExampleRootStep(b: Services, s: Analyzer)
    ensures VisitFolder(ExampleConfig, b, ExampleVisits[0], s) == s
  {
  }

  /** The configured-skip folder `build` adds nothing, whatever came before. */
  lemma ExampleSkippedStep(b: Services, s: Analyzer)
    ensures Run(ExampleConfig, b, ExampleVisits[2..], s) == s
  {
    var cfg := ExampleConfig;
    assert ShouldSkipFolder(cfg, "build") by {
      assert "build"[..5] == "build";
    }
    assert VisitFolder(cfg, b, ExampleVisits[2], s) == s;
  }
}

=== FILE: strings.dfy ===
/** String helpers with the meaning Python gives them: substring test,
    `str.endswith`, `str.join`, `os.path.join` and `os.path.basename`
    (POSIX separator). */
module Strings {

  /** `sub` occurs in `s` starting at offset `i`. */
  ghost predicate OccursAt(s: string, sub: string, i: int) {
    0 <= i && i + |sub| <= |s| && s[i..i + |sub|] == sub
  }

  /** Python's `sub in s` for strings; the empty string occurs everywhere. */
  predicate Contains(s: string, sub: string)
    decreases |s|
  {
    (|sub| <= |s| && s[..|sub|] == sub) || (|s| > 0 && Contains(s[1..], sub))
  }

  /** `Contains` holds exactly when some window of `s` equals `sub`. */
  lemma {:induction false} ContainsIff(s: string, sub: string)
    ensures Contains(s, sub) <==> exists i :: OccursAt(s, sub, i)
    decreases |s|
  {
    if Contains(s, sub) {
      if |sub| <= |s| && s[..|sub|] == sub {
        assert OccursAt(s, sub, 0);
      } else {
        ContainsIff(s[1..], sub);
        var i :| OccursAt(s[1..], sub, i);
        assert s[1..][i..i + |sub|] == s[i + 1..i + 1 + |sub|];
        assert OccursAt(s, sub, i + 1);
      }
    }
    if exists i :: OccursAt(s, sub, i) {
      var i :| OccursAt(s, sub, i);
      if i > 0 {
        assert s[1..][i - 1..i - 1 + |sub|] == s[i..i + |sub|];
        assert OccursAt(s[1..], sub, i - 1);
        ContainsIff(s[1..], sub);
      } else {
        assert s[..|sub|] == s[0..|sub|];
      }
    }
  }

  /** A substring of `s` stays a substring when text is added on either side. */
  lemma ContainsExtend(s: string, sub: string, before: string, after: string)
    requires Contains(s, sub)
    ensures Contains(before + s + after, sub)
  {
    ContainsIff(s, sub);
    var i :| OccursAt(s, sub, i);
    var t := before + s + after;
    assert t[|before| + i..|before| + i + |sub|] == s[i..i + |sub|];
    assert OccursAt(t, sub, |before| + i);
    ContainsIff(t, sub);
  }

  /** Python's `s.endswith(suffix)`. */
  predicate EndsWith(s: string, suffix: string) {
    |suffix| <= |s| && s[|s| - |suffix|..] == suffix
  }

  /** Python's `sep.join(parts)`. */
  function Join(sep: string, parts: seq<string>): string {
    if |parts| == 0 then ""
    else if |parts| == 1 then parts[0]
    else parts[0] + sep + Join(sep, parts[1..])
  }

  /** Every part appears verbatim in the joined text. */
  lemma {:induction false} JoinContainsParts(sep: string, parts: seq<string>, i: int)
    requires 0 <= i < |parts|
    ensures Contains(Join(sep, parts), parts[i])
  {
    if |parts| == 1 {
      ContainsIff(parts[0], parts[0]);
      assert OccursAt(parts[0], parts[0], 0);
    } else if i == 0 {
      ContainsIff(parts[0], parts[0]);
      assert OccursAt(parts[0], parts[0], 0);
      ContainsExtend(parts[0], parts[0], "", sep + Join(sep, parts[1..]));
      assert "" + parts[0] + (sep + Join(sep, parts[1..])) == Join(sep, parts);
    } else {
      JoinContainsParts(sep, parts[1..], i - 1);
      ContainsExtend(Join(sep, parts[1..]), parts[i], parts[0] + sep, "");
      assert parts[0] + sep + Join(sep, parts[1..]) + "" == Join(sep, parts);
    }
  }

  /** Python's `os.path.join(a, b)` for two components (POSIX). */
  function PathJoin(a: string, b: string): string {
    if |b| > 0 && b[0] == '/' then b
    else if a == [] || a[|a| - 1] == '/' then a + b
    else a + "/" + b
  }

  /** Index just past the last '/' in `p`, or 0 when there is none. */
  function BaseStart(p: string): (i: nat)
    ensures i <= |p|
  {
    if p == [] then 0
    else if p[|p| - 1] == '/' then |p|
    else BaseStart(p[..|p| - 1])
  }

  /** Python's `os.path.basename(p)`: the text after the last '/'. */
  function Basename(p: string): string {
    p[BaseStart(p)..]
  }

  /** `r` is the final path component of `p`: a suffix of `p` without '/',
      preceded in `p` by '/' unless it is all of `p`. */
  ghost predicate IsFinalComponent(p: string, r: string) {
    && |r| <= |p|
    && p[|p| - |r|..] == r
    && (forall j :: 0 <= j < |r| ==> r[j] != '/')
    && (|r| == |p| || p[|p| - |r| - 1] == '/')
  }

  lemma BasenameIsFinalComponent(p: string)
    ensures IsFinalComponent(p, Basename(p))
  {
    BaseStartFacts(p);
    var r := Basename(p);
    assert |p| - |r| == BaseStart(p);
    assert forall j :: 0 <= j < |r| ==> r[j] == p[BaseStart(p) + j];
  }

  /** Every character from `BaseStart(p)` on is not '/', and the one just
      before it, if any, is. */
  lemma {:induction false} BaseStartFacts(p: string)
    ensures forall i :: BaseStart(p) <= i < |p| ==> p[i] != '/'
    ensures BaseStart(p) == 0 || p[BaseStart(p) - 1] == '/'
    decreases |p|
  {
    if p != [] && p[|p| - 1] != '/' {
      var q := p[..|p| - 1];
      BaseStartFacts(q);
      assert forall i :: BaseStart(q) <= i < |q| ==> p[i] == q[i];
    }
  }

  /** The final component is unique, so it specifies `Basename` completely. */
  lemma FinalComponentUnique(p: string, r: string, r': string)
    requires IsFinalComponent(p, r) && IsFinalComponent(p, r')
    ensures r == r'
  {
  }

  /** A characterisation of `Basename` that does not mention how it is computed. */
  lemma BasenameIff(p: string, r: string)
    ensures Basename(p) == r <==> IsFinalComponent(p, r)
  {
    BasenameIsFinalComponent(p);
    if IsFinalComponent(p, r) {
      FinalComponentUnique(p, r, Basename(p));
    }
  }

  /** Joining a directory path (ending without '/') and a plain name, then
      taking the base name, gives the name back. */
  lemma BasenameOfPathJoin(dir: string, name: string)
    requires dir != [] && dir[|dir| - 1] != '/'
    requires forall j :: 0 <= j < |name| ==> name[j] != '/'
    ensures Basename(PathJoin(dir, name)) == name
  {
    var p := PathJoin(dir, name);
    if |name| > 0 {
      assert name[0] != '/';
    }
    assert p == dir + "/" + name;
    assert p[|p| - |name|..] == name;
    assert p[|p| - |name| - 1] == '/';
    BasenameIff(p, name);
  }
}

=== FILE: units.dfy ===
/** The walk seen as a list of candidate units. Which folders and files are
    candidates depends only on the tree and the configuration; the state
    only decides whether a candidate is already documented. This module
    proves that the loop of `analyze_codebase` is exactly "document every
    candidate whose key is absent, in walk order", and what that implies. */
module Units {
  import opened Options
  import opened Strings
  import opened DocStore
  import opened Config
  import opened Backend
  import opened Context
  import opened Persistence
  import opened Traversal
  import opened Analyzer

  /** A folder or file the walk would document if its key were absent. */
  datatype Unit =
    | FolderWork(folder: string, files: seq<string>)
    | FileWork(folder: string, name: string)
  {
    /** Its key in the documentation dictionary. */
    function Key(): string {
      match this
      case FolderWork(p, _) => p
      case FileWork(p, n) => PathJoin(p, n)
    }

    function Kind(): UnitKind {
      if FolderWork? then FolderUnit else FileUnit
    }
  }

  /** Keys of `us`, in order. */
  function UnitKeys(us: seq<Unit>): (ks: seq<string>)
    ensures |ks| == |us| && forall i :: 0 <= i < |us| ==> ks[i] == us[i].Key()
  {
    seq(|us|, i requires 0 <= i < |us| => us[i].Key())
  }

  /** The matching files of the folder at `rel`, in listing order. */
  function FileUnits(cfg: Config, rel: string, files: seq<string>): seq<Unit> {
    if files == [] then []
    else (if ShouldAnalyzeFile(cfg, files[0]) then [FileWork(rel, files[0])] else [])
         + FileUnits(cfg, rel, files[1..])
  }

  /** Candidates of one visited folder: none when it is skipped, a test
      folder or holds no files; otherwise the folder, then its matching files. */
  function VisitUnits(cfg: Config, v: Visit): seq<Unit> {
    if ShouldSkipFolder(cfg, v.rel) || IsTestFolder(v.rel) || |v.files| == 0 then []
    else [FolderWork(v.rel, v.files)] + FileUnits(cfg, v.rel, v.files)
  }

  /** Candidates of a whole walk, in walk order. */
  function UnitsOf(cfg: Config, vs: seq<Visit>): seq<Unit> {
    if vs == [] then [] else VisitUnits(cfg, vs[0]) + UnitsOf(cfg, vs[1..])
  }

  /** The documentation a candidate receives. */
  function Produce(cfg: Config, b: Services, ctx: ContextState, u: Unit): Documented {
    match u
    case FolderWork(p, files) => AnalyzeFolder(cfg, b, ctx, p, files)
    case FileWork(_, _) => AnalyzeFile(cfg, b, ctx, u.Key())
  }

  /** Document one candidate unless its key is already present. */
  function Process(cfg: Config, b: Services, u: Unit, s: Analyzer): Analyzer {
    if u.Key() in Keys(s.docs) then s
    else Record(b, s, u.Key(), u.Kind(), Produce(cfg, b, s.ctx, u))
  }

  function ProcessAll(cfg: Config, b: Services, us: seq<Unit>, s: Analyzer): Analyzer
    decreases |us|
  {
    if us == [] then s else ProcessAll(cfg, b, us[1..], Process(cfg, b, us[0], s))
  }

  lemma {:induction false} ProcessAllAppend(cfg: Config, b: Services, us: seq<Unit>, ws: seq<Unit>, s: Analyzer)
    ensures ProcessAll(cfg, b, us + ws, s) == ProcessAll(cfg, b, ws, ProcessAll(cfg, b, us, s))
    decreases |us|
  {
    if us == [] {
      assert us + ws == ws;
    } else {
      assert (us + ws)[0] == us[0] && (us + ws)[1..] == us[1..] + ws;
      ProcessAllAppend(cfg, b, us[1..], ws, Process(cfg, b, us[0], s));
    }
  }

  lemma {:induction false} VisitFilesIsProcessAll(cfg: Config, b: Services, rel: string, files: seq<string>, s: Analyzer)
    ensures VisitFiles(cfg, b, rel, files, s) == ProcessAll(cfg, b, FileUnits(cfg, rel, files), s)
    decreases |files|
  {
    if files != [] {
      var head := if ShouldAnalyzeFile(cfg, files[0]) then [FileWork(rel, files[0])] else [];
      var s1 := ProcessAll(cfg, b, head, s);
      ProcessAllAppend(cfg, b, head, FileUnits(cfg, rel, files[1..]), s);
      VisitFilesIsProcessAll(cfg, b, rel, files[1..], s1);
    }
  }

  lemma VisitFolderIsProcessAll(cfg: Config, b: Services, v: Visit, s: Analyzer)
    ensures VisitFolder(cfg, b, v, s) == ProcessAll(cfg, b, VisitUnits(cfg, v), s)
  {
    if !ShouldSkipFolder(cfg, v.rel) && !IsTestFolder(v.rel) {
      if |v.files| == 0 {
        assert FileUnits(cfg, v.rel, v.files) == [];
      } else {
        var folder := FolderWork(v.rel, v.files);
        ProcessAllAppend(cfg, b, [folder], FileUnits(cfg, v.rel, v.files), s);
        VisitFilesIsProcessAll(cfg, b, v.rel, v.files, Process(cfg, b, folder, s));
      }
    }
  }

  /** The code-shaped walk loop documents exactly the absent candidates, in order. */
  lemma {:induction false} RunIsProcessAll(cfg: Config, b: Services, vs: seq<Visit>, s: Analyzer)
    ensures Run(cfg, b, vs, s) == ProcessAll(cfg, b, UnitsOf(cfg, vs), s)
    decreases |vs|
  {
    if vs != [] {
      VisitFolderIsProcessAll(cfg, b, vs[0], s);
      ProcessAllAppend(cfg, b, VisitUnits(cfg, vs[0]), UnitsOf(cfg, vs[1..]), s);
      RunIsProcessAll(cfg, b, vs[1..], VisitFolder(cfg, b, vs[0], s));
    }
  }

  // ---------------------------------------------------------------------
  // Where candidates can come from

  /** No candidate lies in, or below, a skipped folder or a test folder, a
      folder candidate has files, and a file candidate matches an extension. */
  lemma {:induction false} UnitsAvoidExcludedFolders(cfg: Config, vs: seq<Visit>)
    ensures forall u, p :: u in UnitsOf(cfg, vs) && p <= u.folder ==>
      !ShouldSkipFolder(cfg, p) && !IsTestFolder(p)
    ensures forall u :: u in UnitsOf(cfg, vs) ==>
      (u.FolderWork? ==> |u.files| > 0) && (u.FileWork? ==> ShouldAnalyzeFile(cfg, u.name))
    decreases |vs|
  {
    if vs != [] {
      UnitsAvoidExcludedFolders(cfg, vs[1..]);
      VisitUnitsShape(cfg, vs[0]);
      forall u, p | u in UnitsOf(cfg, vs) && p <= u.folder
        ensures !ShouldSkipFolder(cfg, p) && !IsTestFolder(p)
      {
        if u in VisitUnits(cfg, vs[0]) {
          var rest := u.folder[|p|..];
          assert "" + p + rest == u.folder;
          if ShouldSkipFolder(cfg, p) {
            SkipExtends(cfg, p, "", rest);
          }
          if IsTestFolder(p) {
            TestFolderExtends(p, "", rest);
          }
        }
      }
    }
  }

  lemma VisitUnitsShape(cfg: Config, v: Visit)
    ensures forall u :: u in VisitUnits(cfg, v) ==>
      && u.folder == v.rel && !ShouldSkipFolder(cfg, v.rel) && !IsTestFolder(v.rel)
      && (u.FolderWork? ==> |u.files| > 0) && (u.FileWork? ==> ShouldAnalyzeFile(cfg, u.name))
  {
    if !ShouldSkipFolder(cfg, v.rel) && !IsTestFolder(v.rel) && |v.files| > 0 {
      FileUnitsShape(cfg, v.rel, v.files);
    }
  }

  lemma {:induction false} FileUnitsShape(cfg: Config, rel: string, files: seq<string>)
    ensures forall u :: u in FileUnits(cfg, rel, files) ==>
      u.FileWork? && u.folder == rel && u.name in files && ShouldAnalyzeFile(cfg, u.name)
  {
    if files != [] {
      FileUnitsShape(cfg, rel, files[1..]);
    }
  }

  /** Every matching file of a folder is a file candidate of it. */
  lemma {:induction false} FileUnitsComplete(cfg: Config, rel: string, files: seq<string>, f: string)
    requires f in files && ShouldAnalyzeFile(cfg, f)
    ensures FileWork(rel, f) in FileUnits(cfg, rel, files)
  {
    if files[0] != f {
      FileUnitsComplete(cfg, rel, files[1..], f);
    }
  }

  /** The candidates of each visited folder are candidates of the walk. */
  lemma {:induction false} UnitsOfComplete(cfg: Config, vs: seq<Visit>, v: Visit, u: Unit)
    requires v in vs && u in VisitUnits(cfg, v)
    ensures u in UnitsOf(cfg, vs)
    decreases |vs|
  {
    if vs[0] != v {
      UnitsOfComplete(cfg, vs[1..], v, u);
    }
  }

  /** Conversely to `UnitsAvoidExcludedFolders`: a visited folder that is
      neither skipped nor a test folder is a candidate as soon as it has
      files, whether or not any of them matches an extension. */
  lemma KeptFolderCandidate(cfg: Config, vs: seq<Visit>, v: Visit)
    requires v in vs && !ShouldSkipFolder(cfg, v.rel) && !IsTestFolder(v.rel) && |v.files| > 0
    ensures FolderWork(v.rel, v.files) in UnitsOf(cfg, vs)
  {
    UnitsOfComplete(cfg, vs, v, FolderWork(v.rel, v.files));
  }

  /** Each matching file of such a folder is a candidate too, whatever the file is called. */
  lemma KeptFileCandidate(cfg: Config, vs: seq<Visit>, v: Visit, f: string)
    requires v in vs && !ShouldSkipFolder(cfg, v.rel) && !IsTestFolder(v.rel)
    requires f in v.files && ShouldAnalyzeFile(cfg, f)
    ensures FileWork(v.rel, f) in UnitsOf(cfg, vs)
  {
    FileUnitsComplete(cfg, v.rel, v.files, f);
    UnitsOfComplete(cfg, vs, v, FileWork(v.rel, f));
  }

  /** A skipped folder contributes no candidate, neither itself nor anything below it. */
  lemma SkippedFolderContributesNothing(cfg: Config, rel: string, d: Dir)
    requires ShouldSkipFolder(cfg, rel)
    ensures UnitsOf(cfg, Walk(cfg, rel, d)) == []
  {
    assert UnitsOf(cfg, Walk(cfg, rel, d)) == VisitUnits(cfg, Walk(cfg, rel, d)[0]);
  }

  lemma {:induction false} UnitsOfAllExcluded(cfg: Config, vs: seq<Visit>)
    requires forall v :: v in vs ==> IsTestFolder(v.rel)
    ensures UnitsOf(cfg, vs) == []
    decreases |vs|
  {
    if vs != [] {
      UnitsOfAllExcluded(cfg, vs[1..]);
    }
  }

  /** A test folder is walked into, but neither it nor anything below it
      becomes a candidate: every path below it contains its path. */
  lemma TestFolderContributesNothing(cfg: Config, rel: string, d: Dir)
    requires IsTestFolder(rel)
    ensures UnitsOf(cfg, Walk(cfg, rel, d)) == []
  {
    RootIsNoTestFolder();
    WalkBelowTestFolder(cfg, rel, d);
    UnitsOfAllExcluded(cfg, Walk(cfg, rel, d));
  }

  lemma RootIsNoTestFolder()
    ensures !IsTestFolder(RootPath)
  {
    assert !Contains(RootPath, "src/test") && !Contains(RootPath, "src\\test");
  }

  /** Every folder the walk reaches from a test folder is a test folder. */
  lemma WalkBelowTestFolder(cfg: Config, rel: string, d: Dir)
    requires IsTestFolder(rel) && rel != RootPath
    ensures forall v :: v in Walk(cfg, rel, d) ==> IsTestFolder(v.rel)
  {
    WalkStaysBelow(cfg, rel, d);
    forall v | v in Walk(cfg, rel, d)
      ensures IsTestFolder(v.rel)
    {
      if v.rel != rel {
        var rest := v.rel[|rel|..];
        assert "" + rel + rest == v.rel;
        TestFolderExtends(rel, "", rest);
      }
    }
  }

  /** Unlike a skipped folder, a test folder's sub-directories (other than
      `.git`) are still visited. */
  lemma TestFolderStillWalked(cfg: Config, rel: string, d: Dir, k: Dir)
    requires !ShouldSkipFolder(cfg, rel) && k in RemoveGit(d.subdirs)
    ensures Visit(ChildPath(rel, k.name), k.name, k.files) in Walk(cfg, rel, d)
  {
    WalkAllVisitsKids(cfg, rel, d, RemoveGit(d.subdirs), k);
  }

  lemma {:induction false} WalkAllVisitsKids(cfg: Config, rel: string, parent: Dir, kids: seq<Dir>, k: Dir)
    requires forall x :: x in kids ==> x in parent.subdirs
    requires k in kids
    ensures Visit(ChildPath(rel, k.name), k.name, k.files) in WalkAll(cfg, rel, parent, kids)
    decreases |kids|
  {
    assert kids[0] in parent.subdirs;
    if kids[0] != k {
      WalkAllVisitsKids(cfg, rel, parent, kids[1..], k);
    }
  }

  // ---------------------------------------------------------------------
  // What documenting the candidates does to the analyzer

  /** Paths of the context updates in `calls`, in order. */
  function Updates(calls: seq<Call>): seq<string> {
    if calls == [] then []
    else (if calls[0].SummaryUpdate? then [calls[0].path] else []) + Updates(calls[1..])
  }

  lemma {:induction false} UpdatesAppend(a: seq<Call>, c: seq<Call>)
    ensures Updates(a + c) == Updates(a) + Updates(c)
  {
    if a == [] {
      assert a + c == c;
    } else {
      assert (a + c)[0] == a[0] && (a + c)[1..] == a[1..] + c;
      UpdatesAppend(a[1..], c);
    }
  }

  lemma {:induction false} UpdatesNone(a: seq<Call>)
    requires forall c :: c in a ==> !c.SummaryUpdate?
    ensures Updates(a) == []
  {
    if a != [] {
      UpdatesNone(a[1..]);
    }
  }

  lemma KeysAppend(a: Store, c: Store)
    ensures Keys(a + c) == Keys(a) + Keys(c) && Docs(a + c) == Docs(a) + Docs(c)
  {
  }

  /** The model calls made for a unit all serve that unit's key and none is a context update. */
  lemma ProduceCalls(cfg: Config, b: Services, ctx: ContextState, u: Unit)
    ensures forall c :: c in Produce(cfg, b, ctx, u).calls ==> c.path == u.Key() && !c.SummaryUpdate?
  {
    if u.FileWork? {
      var chunks := b.split(b.read(u.Key()));
      if |chunks| <= MaxChunks(cfg) {
        var cs := ChunkCalls(u.Key(), |chunks|);
        forall c | c in cs
          ensures c.path == u.Key() && !c.SummaryUpdate?
        {
          var i :| 0 <= i < |cs| && cs[i] == c;
        }
      }
    }
  }

  /** Prefixes compose, and what the two steps added lines up. */
  lemma PrefixTrans<T>(a: seq<T>, b: seq<T>, c: seq<T>)
    requires a <= b && b <= c
    ensures a <= c && c[|a|..] == b[|a|..] + c[|b|..]
  {
    assert c == c[..|b|] + c[|b|..];
  }

  /** Every call in `cs` serves one of the keys of `d`. */
  ghost predicate CallsServe(cs: seq<Call>, d: Store) {
    forall c :: c in cs ==> c.path in Keys(d)
  }

  lemma CallsServeAppend(c1: seq<Call>, d1: Store, c2: seq<Call>, d2: Store)
    requires CallsServe(c1, d1) && CallsServe(c2, d2)
    ensures CallsServe(c1 + c2, d1 + d2)
  {
    KeysAppend(d1, d2);
    forall c | c in c1 + c2
      ensures c.path in Keys(d1 + d2)
    {
      if c in c1 {
        var i :| 0 <= i < |d1| && Keys(d1)[i] == c.path;
        assert Keys(d1 + d2)[i] == c.path;
      } else {
        var i :| 0 <= i < |d2| && Keys(d2)[i] == c.path;
        assert Keys(d1 + d2)[|d1| + i] == c.path;
      }
    }
  }

  /** From `s` to `r` the analyzer only appended: old entries and calls are
      kept in place; the store grew by the new documentation in insertion
      order; each new call serves a new key; the context updates among the
      new calls are exactly the new keys in order; the last save holds `r`. */
  ghost predicate Grows(s: Analyzer, r: Analyzer) {
    && s.docs <= r.docs
    && s.calls <= r.calls
    && r.ctx.store == s.ctx.store + Docs(r.docs[|s.docs|..])
    && Updates(r.calls[|s.calls|..]) == Keys(r.docs[|s.docs|..])
    && CallsServe(r.calls[|s.calls|..], r.docs[|s.docs|..])
    && (|r.docs| == |s.docs| ==> r == s)
    && (|r.docs| > |s.docs| ==> r.disk == SaveProgress(r.docs, r.ctx))
  }

  lemma GrowsRefl(s: Analyzer)
    ensures Grows(s, s)
  {
    assert s.docs[|s.docs|..] == [] && s.calls[|s.calls|..] == [];
    assert s.ctx.store + Docs([]) == s.ctx.store;
  }

  /** The parts of `Grows` that relate what the two steps appended. */
  lemma AppendedPartsTrans(store0: seq<string>, store1: seq<string>, store2: seq<string>,
                           callsS: seq<Call>, callsM: seq<Call>, newS: Store, newM: Store)
    requires store1 == store0 + Docs(newS) && store2 == store1 + Docs(newM)
    requires Updates(callsS) == Keys(newS) && Updates(callsM) == Keys(newM)
    requires CallsServe(callsS, newS) && CallsServe(callsM, newM)
    ensures store2 == store0 + Docs(newS + newM)
    ensures Updates(callsS + callsM) == Keys(newS + newM)
    ensures CallsServe(callsS + callsM, newS + newM)
  {
    KeysAppend(newS, newM);
    assert store2 == store0 + (Docs(newS) + Docs(newM));
    assert Updates(callsS + callsM) == Keys(newS) + Keys(newM) by {
      UpdatesAppend(callsS, callsM);
    }
    CallsServeAppend(callsS, newS, callsM, newM);
  }

  lemma GrowsTrans(s: Analyzer, m: Analyzer, r: Analyzer)
    requires Grows(s, m) && Grows(m, r)
    ensures Grows(s, r)
  {
    if |m.docs| == |s.docs| {
      assert m == s;
    } else if |r.docs| == |m.docs| {
      assert r == m;
    } else {
      PrefixTrans(s.docs, m.docs, r.docs);
      PrefixTrans(s.calls, m.calls, r.calls);
      AppendedPartsTrans(s.ctx.store, m.ctx.store, r.ctx.store,
                         m.calls[|s.calls|..], r.calls[|m.calls|..], m.docs[|s.docs|..], r.docs[|m.docs|..]);
    }
  }

  /** Recording an absent key whose calls all serve it grows the analyzer by one entry. */
  lemma RecordGrows(b: Services, s: Analyzer, key: string, kind: UnitKind, out: Documented)
    requires UniqueKeys(s.docs) && key !in Keys(s.docs)
    requires forall c :: c in out.calls ==> c.path == key && !c.SummaryUpdate?
    ensures var r := Record(b, s, key, kind, out);
      Grows(s, r) && r.docs == s.docs + [Entry(key, out.doc)] && UniqueKeys(r.docs)
  {
    var r := Record(b, s, key, kind, out);
    PutAbsent(s.docs, key, out.doc);
    assert r.docs[..|s.docs|] == s.docs;
    assert r.docs[|s.docs|..] == [Entry(key, out.doc)];
    assert r.calls[..|s.calls|] == s.calls;
    assert r.calls[|s.calls|..] == out.calls + [SummaryUpdate(key, kind)];
    UpdatesNone(out.calls);
    UpdatesAppend(out.calls, [SummaryUpdate(key, kind)]);
  }

  /** Processing one candidate grows the analyzer, keeps keys unique and
      adds at most the candidate's key. */
  lemma ProcessGrows(cfg: Config, b: Services, u: Unit, s: Analyzer)
    requires UniqueKeys(s.docs)
    ensures var r := Process(cfg, b, u, s);
      && Grows(s, r) && UniqueKeys(r.docs)
      && Keys(r.docs) == Keys(s.docs) + (if u.Key() in Keys(s.docs) then [] else [u.Key()])
  {
    if u.Key() in Keys(s.docs) {
      GrowsRefl(s);
    } else {
      var out := Produce(cfg, b, s.ctx, u);
      ProduceCalls(cfg, b, s.ctx, u);
      RecordGrows(b, s, u.Key(), u.Kind(), out);
      KeysAppend(s.docs, [Entry(u.Key(), out.doc)]);
    }
  }

  /** Documenting a list of candidates grows the analyzer and keeps keys unique. */
  lemma {:induction false} ProcessAllGrows(cfg: Config, b: Services, us: seq<Unit>, s: Analyzer)
    requires UniqueKeys(s.docs)
    ensures var r := ProcessAll(cfg, b, us, s);
      Grows(s, r) && UniqueKeys(r.docs)
    decreases |us|
  {
    if us == [] {
      GrowsRefl(s);
    } else {
      var m := Process(cfg, b, us[0], s);
      ProcessGrows(cfg, b, us[0], s);
      ProcessAllGrows(cfg, b, us[1..], m);
      GrowsTrans(s, m, ProcessAll(cfg, b, us[1..], m));
    }
  }

  /** The keys after documenting the candidates are the old keys plus the candidates'. */
  lemma {:induction false} ProcessAllKeys(cfg: Config, b: Services, us: seq<Unit>, s: Analyzer)
    requires UniqueKeys(s.docs)
    ensures forall k :: k in Keys(ProcessAll(cfg, b, us, s).docs) <==> k in Keys(s.docs) || k in UnitKeys(us)
    decreases |us|
  {
    if us != [] {
      var m := Process(cfg, b, us[0], s);
      ProcessGrows(cfg, b, us[0], s);
      ProcessAllKeys(cfg, b, us[1..], m);
      assert UnitKeys(us) == [us[0].Key()] + UnitKeys(us[1..]);
    }
  }

  /** Documenting candidates never changes an entry that is already present. */
  lemma ProcessAllKeepsLookup(cfg: Config, b: Services, us: seq<Unit>, s: Analyzer, k: string)
    requires UniqueKeys(s.docs) && k in Keys(s.docs)
    ensures Lookup(ProcessAll(cfg, b, us, s).docs, k) == Lookup(s.docs, k)
  {
    var r := ProcessAll(cfg, b, us, s);
    ProcessAllGrows(cfg, b, us, s);
    assert r.docs == s.docs + r.docs[|s.docs|..];
    LookupPrefix(s.docs, r.docs[|s.docs|..], k);
  }

  /** A folder candidate none of whose files matches is recorded with the
      empty documentation, provided its key is absent and no earlier
      candidate carries that key unless it is the same folder. */
  lemma {:induction false} ProcessAllRecordsEmptyFolder(cfg: Config, b: Services, us: seq<Unit>, s: Analyzer, i: nat)
    requires UniqueKeys(s.docs)
    requires i < |us| && us[i].FolderWork? && forall f :: f in us[i].files ==> !ShouldAnalyzeFile(cfg, f)
    requires us[i].Key() !in Keys(s.docs)
    requires forall j :: 0 <= j < i && us[j].Key() == us[i].Key() ==> us[j] == us[i]
    ensures Lookup(ProcessAll(cfg, b, us, s).docs, us[i].Key()) == Some("")
    decreases |us|
  {
    var k := us[i].Key();
    var m := Process(cfg, b, us[0], s);
    ProcessGrows(cfg, b, us[0], s);
    if us[0].Key() == k {
      assert us[0] == us[i];
      var out := AnalyzeFolder(cfg, b, s.ctx, us[0].folder, us[0].files);
      assert out.doc == "";
      assert m.docs == Put(s.docs, k, "");
      PutLookupSame(s.docs, k, "");
      ProcessAllKeepsLookup(cfg, b, us[1..], m, k);
    } else {
      assert k !in Keys(m.docs);
      ProcessAllRecordsEmptyFolder(cfg, b, us[1..], m, i - 1);
    }
  }

  /** Candidates whose keys are all documented change nothing at all. */
  lemma {:induction false} ProcessAllKnown(cfg: Config, b: Services, us: seq<Unit>, s: Analyzer)
    requires forall i :: 0 <= i < |us| ==> us[i].Key() in Keys(s.docs)
    ensures ProcessAll(cfg, b, us, s) == s
    decreases |us|
  {
    if us != [] {
      ProcessAllKnown(cfg, b, us[1..], s);
    }
  }

  lemma ProcessIgnoresLog(cfg: Config, b: Services, u: Unit, s: Analyzer)
    ensures var r := Process(cfg, b, u, s);
      var r0 := Process(cfg, b, u, s.(calls := []));
      r0.docs == r.docs && r0.ctx == r.ctx && r0.disk == r.disk && r.calls == s.calls + r0.calls
  {
    if u.Key() !in Keys(s.docs) {
      var out := Produce(cfg, b, s.ctx, u);
      assert s.calls + out.calls + [SummaryUpdate(u.Key(), u.Kind())]
          == s.calls + ([] + out.calls + [SummaryUpdate(u.Key(), u.Kind())]);
    } else {
      assert s.calls + [] == s.calls;
    }
  }

  /** The step of `ProcessAllIgnoresLog`: `m`, `m0` after the first
      candidate with and without the earlier log; `r`, `r0`, `z` after the
      rest from `m`, from `m0` and from `m` with an empty log. */
  lemma IgnoresLogCompose(s: Analyzer, m: Analyzer, m0: Analyzer, r: Analyzer, r0: Analyzer, z: Analyzer)
    requires m0.docs == m.docs && m0.ctx == m.ctx && m0.disk == m.disk && m.calls == s.calls + m0.calls
    requires z.docs == r.docs && z.ctx == r.ctx && z.disk == r.disk && r.calls == m.calls + z.calls
    requires z.docs == r0.docs && z.ctx == r0.ctx && z.disk == r0.disk && r0.calls == m0.calls + z.calls
    ensures r0.docs == r.docs && r0.ctx == r.ctx && r0.disk == r.disk && r.calls == s.calls + r0.calls
  {
    assert r.calls == s.calls + m0.calls + z.calls;
  }

  /** The analyzer's behaviour does not depend on the calls already logged:
      starting from an empty log gives the same dictionary, context and disk,
      and exactly the calls that are appended otherwise. */
  lemma {:induction false} ProcessAllIgnoresLog(cfg: Config, b: Services, us: seq<Unit>, s: Analyzer)
    ensures var r := ProcessAll(cfg, b, us, s);
      var r0 := ProcessAll(cfg, b, us, s.(calls := []));
      r0.docs == r.docs && r0.ctx == r.ctx && r0.disk == r.disk && r.calls == s.calls + r0.calls
    decreases |us|
  {
    if us != [] {
      var m := Process(cfg, b, us[0], s);
      var m0 := Process(cfg, b, us[0], s.(calls := []));
      ProcessIgnoresLog(cfg, b, us[0], s);
      ProcessAllIgnoresLog(cfg, b, us[1..], m);
      ProcessAllIgnoresLog(cfg, b, us[1..], m0);
      assert m0.(calls := []) == m.(calls := []);
      IgnoresLogCompose(s, m, m0, ProcessAll(cfg, b, us[1..], m), ProcessAll(cfg, b, us[1..], m0),
                        ProcessAll(cfg, b, us[1..], m.(calls := [])));
    } else {
      assert s.calls + [] == s.calls;
    }
  }
}

=== FILE: walk.dfy ===
/** The repository tree and `os.walk(repo_path)` in top-down order, with
    the two prunings the analyzer applies to `dirs`: `.git` is removed,
    and a skipped folder's `dirs` is emptied. */
module Traversal {
  import opened Config

  /** A directory: its name, the names of its files and its sub-directories,
      in the order the file system lists them. */
  datatype Dir = Dir(name: string, files: seq<string>, subdirs: seq<Dir>)

  /** One `(root, dirs, files)` triple of the walk: the folder's path relative
      to the repository, its own name and its file names. */
  datatype Visit = Visit(rel: string, name: string, files: seq<string>)

  /** `os.path.relpath` of the repository root itself. */
  const RootPath := "."

  /** Relative path of sub-directory `name` of the folder at `rel`. */
  function ChildPath(rel: string, name: string): string {
    if rel == RootPath then name else rel + "/" + name
  }

  /** `if '.git' in dirs: dirs.remove('.git')`: drops the first `.git` only. */
  function RemoveGit(ds: seq<Dir>): (r: seq<Dir>)
    ensures forall x :: x in r ==> x in ds
    ensures (forall i :: 0 <= i < |ds| ==> ds[i].name != ".git") ==> r == ds
    ensures (exists i :: 0 <= i < |ds| && ds[i].name == ".git") ==> |r| == |ds| - 1
  {
    if ds == [] then []
    else if ds[0].name == ".git" then ds[1..]
    else [ds[0]] + RemoveGit(ds[1..])
  }

  /** `list.remove` drops exactly the first `.git` and keeps the rest in order. */
  lemma {:induction false} RemoveGitDropsFirst(ds: seq<Dir>, i: nat)
    requires i < |ds| && ds[i].name == ".git"
    requires forall j :: 0 <= j < i ==> ds[j].name != ".git"
    ensures RemoveGit(ds) == ds[..i] + ds[i + 1..]
  {
    if i > 0 {
      RemoveGitDropsFirst(ds[1..], i - 1);
      assert ds[1..][..i - 1] == ds[1..i] && ds[1..][i..] == ds[i + 1..];
      assert [ds[0]] + ds[1..i] == ds[..i];
    }
  }

  /** The folders the walk yields, starting at the folder `d` whose relative
      path is `rel`: the folder itself first, then (unless it is skipped)
      each remaining sub-directory's walk in order. */
  function Walk(cfg: Config, rel: string, d: Dir): (r: seq<Visit>)
    ensures |r| >= 1 && r[0] == Visit(rel, d.name, d.files)
    ensures ShouldSkipFolder(cfg, rel) ==> r == [Visit(rel, d.name, d.files)]
    decreases d, 1
  {
    var dirs := if ShouldSkipFolder(cfg, rel) then [] else RemoveGit(d.subdirs);
    [Visit(rel, d.name, d.files)] + WalkAll(cfg, rel, d, dirs)
  }

  /** The walks of `kids`, sub-directories of `parent` at `rel`, one after another. */
  function WalkAll(cfg: Config, rel: string, parent: Dir, kids: seq<Dir>): seq<Visit>
    requires forall k :: k in kids ==> k in parent.subdirs
    decreases parent, 0, |kids|
  {
    if kids == [] then []
    else
      assert kids[0] in parent.subdirs;
      Walk(cfg, ChildPath(rel, kids[0].name), kids[0]) + WalkAll(cfg, rel, parent, kids[1..])
  }

  /** Every folder the walk reaches lies below its starting folder: its
      path is the start's path or extends it with `/` (the root, `.`, is
      not a prefix of its children's paths). */
  lemma {:induction false} WalkStaysBelow(cfg: Config, rel: string, d: Dir)
    requires rel != RootPath
    ensures forall v :: v in Walk(cfg, rel, d) ==> v.rel == rel || rel + "/" <= v.rel
    decreases d, 1
  {
    var dirs := if ShouldSkipFolder(cfg, rel) then [] else RemoveGit(d.subdirs);
    WalkAllStaysBelow(cfg, rel, d, dirs);
  }

  lemma {:induction false} WalkAllStaysBelow(cfg: Config, rel: string, parent: Dir, kids: seq<Dir>)
    requires rel != RootPath
    requires forall k :: k in kids ==> k in parent.subdirs
    ensures forall v :: v in WalkAll(cfg, rel, parent, kids) ==> rel + "/" <= v.rel
    decreases parent, 0, |kids|
  {
    if kids != [] {
      assert kids[0] in parent.subdirs;
      var child := ChildPath(rel, kids[0].name);
      assert child == rel + "/" + kids[0].name;
      assert child[|rel|] == '/';
      WalkStaysBelow(cfg, child, kids[0]);
      WalkAllStaysBelow(cfg, rel, parent, kids[1..]);
      forall v | v in Walk(cfg, child, kids[0])
        ensures rel + "/" <= v.rel
      {
        assert rel + "/" <= child;
      }
    }
  }

  /** Sub-directory names are distinct at every level, as in a file system. */
  ghost predicate UniqueNames(d: Dir) {
    && (forall i, j :: 0 <= i < j < |d.subdirs| ==> d.subdirs[i].name != d.subdirs[j].name)
    && (forall k :: k in d.subdirs ==> UniqueNames(k))
  }

  /** In a real file system the walk never enters a `.git` directory. */
  lemma {:induction false} WalkSkipsGit(cfg: Config, rel: string, d: Dir)
    requires UniqueNames(d)
    ensures forall i :: 1 <= i < |Walk(cfg, rel, d)| ==> Walk(cfg, rel, d)[i].name != ".git"
    decreases d, 1
  {
    var dirs := if ShouldSkipFolder(cfg, rel) then [] else RemoveGit(d.subdirs);
    RemoveGitRemovesAll(d.subdirs);
    WalkAllSkipsGit(cfg, rel, d, dirs);
    var r := Walk(cfg, rel, d);
    assert r[1..] == WalkAll(cfg, rel, d, dirs);
    forall i | 1 <= i < |r|
      ensures r[i].name != ".git"
    {
      assert r[i] == r[1..][i - 1];
    }
  }

  lemma {:induction false} WalkAllSkipsGit(cfg: Config, rel: string, parent: Dir, kids: seq<Dir>)
    requires forall k :: k in kids ==> k in parent.subdirs
    requires UniqueNames(parent)
    requires forall k :: k in kids ==> k.name != ".git"
    ensures forall v :: v in WalkAll(cfg, rel, parent, kids) ==> v.name != ".git"
    decreases parent, 0, |kids|
  {
    if kids != [] {
      assert kids[0] in parent.subdirs;
      var child := ChildPath(rel, kids[0].name);
      WalkSkipsGit(cfg, child, kids[0]);
      WalkAllSkipsGit(cfg, rel, parent, kids[1..]);
      var w := Walk(cfg, child, kids[0]);
      forall v | v in w
        ensures v.name != ".git"
      {
        var i :| 0 <= i < |w| && w[i] == v;
      }
    }
  }

  /** With distinct names, removing the first `.git` removes every `.git`. */
  lemma {:induction false} RemoveGitRemovesAll(ds: seq<Dir>)
    requires forall i, j :: 0 <= i < j < |ds| ==> ds[i].name != ds[j].name
    ensures forall k :: k in RemoveGit(ds) ==> k.name != ".git"
  {
    if ds != [] && ds[0].name != ".git" {
      RemoveGitRemovesAll(ds[1..]);
    }
  }
}
